=== FILE: README.md ===
# GMAD package encoder of GMPublishNET, in Dafny

GMPublishNET (`gmpublish`) publishes Garry's Mod addons to the Steam Workshop.
Its core turns a zip archive holding an addon into a GMAD package and reads such
a package back:

- **Locating the manifest.** `GMAD.FindAddonJson` finds the first member named
  `addon.json` in any letter case. Its parent folder is the addon's root folder.
- **Writing the package.** `GMAD.Create` writes one flat file, in this order:
  - a header: the tag `GMAD`, version 3, a zero Steam id, the Unix time, an empty
    required-content list, the title, the description, `"Author Name"` and revision 1;
  - a file table, with one record per packed member (number, lower-cased path
    below the root folder, size, CRC), ended by a zero record number;
  - the members' contents, in table order;
  - a CRC-32 of everything before it.
- **Selecting members.** The query at line 50 of `GMAD.cs` packs a member when
  its name starts with the root folder's name, it is not a directory, and its
  formatted path passes the whitelist. The name test is a plain prefix test, so
  with the root folder `x` a member of the sibling folder `xlua/` passes it too
  (see Findings). `Gmad.CreateAsWritten` packs this selection. `Gmad.Create`
  packs only the members inside the root folder.
- **Reading the command line.** `Program.Main` turns the command line and two
  environment variables into a command (`create`, `update`, `list`) or an exit code.
  `FindArgumentValue` finds each `-flag value` pair.
- **Probing a package.** `GetAddonInfoFromGMAFile` reads a package's title and
  description from byte offset 22.

How the model is split:

| module | file | contents |
|---|---|---|
| `Common` | common.dfy | `Option` and `Result` |
| `Bytes` | bytes.dfy | bytes, little-endian integers of the widths `BinaryWriter` writes, two's complement |
| `Utf8` | utf8.dfy | the UTF-8 encoding `BinaryWriter` uses for characters and strings, and a strict decoder |
| `NullTerminated` | cstring.dfy | `WriteNullTerminatedString` and `ReadNullTerminatedString` |
| `Text` | text.dfy | the .NET string and path operations the encoder calls, compared character by character |
| `Crc32` | crc32.dfy | CRC-32 as in ZIP (ISO/IEC 3309), bit-serial, with the standard check value |
| `Gmad` | gmad.dfy | `FindAddonJson`, `formatFilename`, the file-list query as written and as corrected, and `Create` |
| `GmadReader` | gmad_reader.dfy | a full package decoder, and the header probe `GetAddonInfoFromGMAFile` |
| `Program` | program.dfy | `FindArgumentValue`, `GetFileInfoOrExit` and the argument handling of `Main` |

How the model treats the archive and the environment:

- The archive is a sequence of `Entry` values in enumeration order. Each has a
  name, an uncompressed size, a CRC, and what extracting it yields, or `None`
  when extraction fails.
- The following enter `Create` as parameters:
  - `parse`, which reads the manifest JSON and builds the description;
  - `allowed`, the whitelist;
  - `now`, the Unix time.
- `Main` receives two parameters:
  - `env`, the environment-variable lookup;
  - `fileExists`, the file-existence test.

`GmadReader.Decode` is written for this model, as the inverse that `Create`'s
promises are stated against. The repository itself only has the 22-byte header
probe.

## Model

| member | source | states |
|---|---|---|
| Gmad.ManifestPathByFileName | gmpublish/GMADZip/GMAD.cs:14 | the suffix test `IsManifestPath` holds exactly when the lower-cased base file name of the path is "addon.json" |
| Gmad.FindAddonJson | gmpublish/GMADZip/GMAD.cs:10-17 | the result is the first name in enumeration order whose base name is "addon.json" in any case, and "" exactly when there is none |
| Gmad.ManifestIndex | gmpublish/GMADZip/GMAD.cs:12-15 | the index found names a manifest and no earlier name does; no index means no name is a manifest |
| Gmad.Lookup | gmpublish/GMADZip/GMAD.cs:29 | the member found is in the archive under exactly that name; none is found only when no member has the name |
| Gmad.EmptyPathIsNotManifest | gmpublish/GMADZip/GMAD.cs:16 | the "" returned when there is no manifest can never itself be taken for a manifest path |
| Gmad.FormatFilename | gmpublish/GMADZip/GMAD.cs:18-21 | a written path never starts with '/' and has no ASCII upper-case letter |
| Gmad.FormatFilenameInsideRoot | gmpublish/GMADZip/GMAD.cs:18-21 | for a member inside the root folder, the written path is its lower-cased path below that folder |
| Gmad.FormatFilenameNoNul | gmpublish/GMADZip/GMAD.cs:18-21 | formatting never introduces a NUL, so the written path reads back whole |
| Gmad.TrimStartStringOnce | gmpublish/GMADZip/GMAD.cs:20 | a root-folder prefix that does not repeat is stripped exactly once |
| Gmad.Filter | gmpublish/GMADZip/GMAD.cs:50 | the list holds only archive members that pass the test, and every member that passes it |
| Gmad.FilterAppend | gmpublish/GMADZip/GMAD.cs:50 | selection distributes over concatenation, so the list keeps archive order |
| Gmad.FilterPosition | gmpublish/GMADZip/GMAD.cs:50-61 | a selected member sits right after the selected members before it, and later members sit strictly later |
| Gmad.FilterIndex | gmpublish/GMADZip/GMAD.cs:50-61 | a selected member's table position is the number of selected members before it |
| Gmad.FileListMembership | gmpublish/GMADZip/GMAD.cs:50 | a member is packed if and only if it is inside the root folder, not a directory, and its formatted path is whitelisted |
| Gmad.SelectedInsideRoot | gmpublish/GMADZip/GMAD.cs:50 | the corrected test admits only members inside the root folder, and each of them passes the test as written too |
| Gmad.InsideRootStartsWith | gmpublish/GMADZip/GMAD.cs:50 | a member inside the root folder starts with the root folder's name |
| Gmad.FileListAgreement | gmpublish/GMADZip/GMAD.cs:50 | if no member's path begins with the root folder's name without being inside that folder, the query as written selects exactly the corrected list |
| Gmad.SiblingFolderLeak | gmpublish/GMADZip/GMAD.cs:50 | the query as written admits a member of a sibling folder whose name extends the root folder's name, and packs it under the rest of its path |
| Gmad.FileListAsWrittenMembership | gmpublish/GMADZip/GMAD.cs:50 | `SelectedAsWritten` and `FileListAsWritten`: a member is packed by the query as written if and only if its name starts with the root folder's name, it is not a directory, and its formatted path is whitelisted |
| Gmad.SiblingFolderExample | gmpublish/GMADZip/GMAD.cs:50 | with the manifest at "x/addon.json", "xlua/foo.lua" passes the written test but is not inside "x" |
| Gmad.MagicTagIsGmad | gmpublish/GMADZip/GMAD.cs:40 | the four tag bytes are the characters "GMAD" as the writer encodes them |
| Gmad.VersionAndTerminatorChars | gmpublish/GMADZip/GMAD.cs:41-44 | the characters 3 and 0 are written as the single bytes 3 and 0 |
| Gmad.AuthorFieldIsPlaceholder | gmpublish/GMADZip/GMAD.cs:47 | the author field is the placeholder "Author Name" written as a null-terminated string |
| Gmad.HeaderStartsWithMagic | gmpublish/GMADZip/GMAD.cs:40-48 | every header begins with the tag "GMAD" |
| Gmad.BodyStartsWithMagic | gmpublish/GMADZip/GMAD.cs:40-76 | everything written before the checksum begins with the tag |
| Gmad.HeaderLength | gmpublish/GMADZip/GMAD.cs:40-48 | `Header`: the header is 40 fixed bytes plus the UTF-8 bytes of the title and of the description |
| Gmad.RecordLength | gmpublish/GMADZip/GMAD.cs:56-59 | `Record`: a table record is 16 bytes plus the path written with its terminator, and starts with its number |
| Gmad.TableLength | gmpublish/GMADZip/GMAD.cs:51-61 | `Table`: the records take 16 bytes per row plus the written paths |
| Gmad.Payload | gmpublish/GMADZip/GMAD.cs:65-76 | the payload exists exactly when every packed member extracts; otherwise the error names a packed member that fails |
| Gmad.PayloadIsContents | gmpublish/GMADZip/GMAD.cs:65-76 | when every member extracts, the payload is their contents back to back, in list order |
| Gmad.PayloadLength | gmpublish/GMADZip/GMAD.cs:65-76 | the payload is as long as the recorded sizes of the packed members add up to, when those sizes are real |
| Gmad.Seal | gmpublish/GMADZip/GMAD.cs:78-84 | the output is the input followed by the CRC-32 of exactly the input |
| Gmad.Package | gmpublish/GMADZip/GMAD.cs:36-87 | a package starts with "GMAD" and ends with the CRC-32 of every byte before it |
| Gmad.LocateManifest | gmpublish/GMADZip/GMAD.cs:25-32 | the manifest path found is the first manifest name in enumeration order, or "" when there is none; it names an archive member whose extraction succeeded and whose parse gave the metadata |
| Gmad.LocateManifestFirst | gmpublish/GMADZip/GMAD.cs:12-15 | when the manifest is located, it is the first member in enumeration order that is a manifest, so that member's folder is the root folder |
| Gmad.LocateManifestParseError | gmpublish/GMADZip/GMAD.cs:29-31 | locating fails with a parse error exactly when the member looked up under the manifest path exists and extracts but does not parse |
| Gmad.Assemble | gmpublish/GMADZip/GMAD.cs:36-87 | writing from a located manifest succeeds exactly when every selected member extracts (with no limit on the package's size); a package starts with "GMAD" and ends with its CRC-32; a failure names a selected member that does not extract |
| Gmad.AssembleLength | gmpublish/GMADZip/GMAD.cs:36-87 | the package is as long as its header, 16 bytes per record plus the paths, the terminator, the contents and the checksum |
| Gmad.Create | gmpublish/GMADZip/GMAD.cs:23-88 | a package that is produced starts with "GMAD" and ends with the CRC-32 of all preceding bytes |
| Gmad.CreateAsWritten | gmpublish/GMADZip/GMAD.cs:23-88 | with the selection of line 50 as written, a package that is produced starts with "GMAD" and ends with the CRC-32 of all preceding bytes |
| Gmad.CreateLength | gmpublish/GMADZip/GMAD.cs:23-88 | `Create`'s output is as long as its header, table, terminator, packed contents and checksum add up to |
| Gmad.CreateWithoutManifest | gmpublish/GMADZip/GMAD.cs:25-29 | an archive with no manifest, and no member with an empty name, yields no package |
| Gmad.CreateFindsManifest | gmpublish/GMADZip/GMAD.cs:10-17 | when some member is a manifest, the manifest is always found, whatever else fails |
| Gmad.ManifestEntryFound | gmpublish/GMADZip/GMAD.cs:25-29 | the path found for a present manifest names a member of the archive |
| Gmad.LocateManifestNotFound | gmpublish/GMADZip/GMAD.cs:25-29 | when the lookup finds no member, locating the manifest fails as not found |
| Gmad.CreateNotFound | gmpublish/GMADZip/GMAD.cs:25-29 | when the manifest lookup finds no member, `Create` fails as not found |
| Gmad.CreateParseError | gmpublish/GMADZip/GMAD.cs:29-31 | `Create` fails with a parse error exactly when the located manifest does not parse |
| Gmad.CreateMemberReadError | gmpublish/GMADZip/GMAD.cs:65-68 | a read failure names an archive member that does not extract, whether it is a packed member or the manifest extracted at line 29 |
| Gmad.LocateManifestReadError | gmpublish/GMADZip/GMAD.cs:29 | a read failure while locating the manifest names an archive member that does not extract |
| Gmad.AssembleErrorInEntries | gmpublish/GMADZip/GMAD.cs:65-68 | a read failure while writing the payload names an archive member that does not extract |
| GmadReader.Decode | gmpublish/GMADZip/GMAD.cs:36-87 | a package is accepted only if it starts with "GMAD" and its last four bytes are the CRC-32 of the rest |
| GmadReader.ReadHeaderOf | gmpublish/GMADZip/GMAD.cs:40-48 | reading a written header returns its id 0, the timestamp, no required content, title, description, "Author Name" and revision 1, and leaves what follows |
| GmadReader.ReadTableOf | gmpublish/GMADZip/GMAD.cs:51-63 | reading a written table returns its rows numbered on from the records already written, and stops at the zero record, as long as no number wraps to 0 |
| GmadReader.WrappedTableReadsEmpty | gmpublish/GMADZip/GMAD.cs:51-56 | once the `uint` record number wraps round to 0, that record reads back as the table's terminator, so the table reads back empty from there |
| GmadReader.ReadRecordOf | gmpublish/GMADZip/GMAD.cs:55-59 | a written record reads back as its number, path, size and CRC |
| GmadReader.ReadContentsOf | gmpublish/GMADZip/GMAD.cs:65-76 | the contents read back member by member, each as long as its recorded size |
| GmadReader.DecodePackage | gmpublish/GMADZip/GMAD.cs:36-87 | a package decodes to its header, and to its rows numbered 1..n with their contents |
| GmadReader.AssembleRoundTrip | gmpublish/GMADZip/GMAD.cs:36-87 | when every selected member extracts, decoding the assembled package gives back the header and every selected member: numbered 1..n in list order, with its formatted path, size, CRC and exact contents |
| GmadReader.CreateRoundTrip | gmpublish/GMADZip/GMAD.cs:23-88 | decoding `Create`'s output gives back the header and every packed member: numbered 1..n in list order, with its formatted path, size, CRC and exact contents |
| GmadReader.CreatePlacesEntry | gmpublish/GMADZip/GMAD.cs:50-76 | each packed member is found at the table position given by the packed members before it |
| GmadReader.CreateAsWrittenRoundTrip | gmpublish/GMADZip/GMAD.cs:23-88 | with the selection of line 50 as written, decoding the output gives back the header and every member that selection packs, numbered 1..n in list order, with its path, size, CRC and contents |
| GmadReader.CreateAsWrittenPlacesEntry | gmpublish/GMADZip/GMAD.cs:50-76 | with the selection as written, each member it packs is found at the table position given by the members packed before it |
| GmadReader.ReadAddonInfo | gmpublish/Program.cs:166-177 | a probe that succeeds saw more than 22 bytes and returns two strings without NUL |
| GmadReader.HeaderAtTitle | gmpublish/Program.cs:170-171 | in every written header, byte 22 is where the title starts |
| GmadReader.AddonInfoOfHeader | gmpublish/Program.cs:170-174 | probing any written header, whatever follows it, returns its title and description |
| GmadReader.AddonInfoOfPackage | gmpublish/Program.cs:170-174 | probing a package returns its title and description |
| GmadReader.AddonInfoOfCreate | gmpublish/Program.cs:166-177 | probing `Create`'s output returns the manifest's title and description |
| GmadReader.AddonInfoAgreesWithHeader | gmpublish/Program.cs:170-174 | on every header with no required content, the probe agrees with the full header reader |
| GmadReader.HeaderStringsAtOffset | gmpublish/Program.cs:170 | the full header reader finds the variable-length fields at byte 21 |
| GmadReader.ReadTitleAndDescription | gmpublish/Program.cs:173-174 | the two null-terminated strings read for the title and the description never hold a NUL |
| GmadReader.ReadTitleAndDescriptionOf | gmpublish/Program.cs:173-174 | a title and description written as null-terminated strings read back as written, whatever follows them |
| NullTerminated.Write | gmpublish/GMADZip/GMAD.cs:45-47 | a written string always ends in its zero terminator; `ReadWrite` and `WriteRead` state the rest of its encoding |
| NullTerminated.Read | gmpublish/Program.cs:173-174 | a successful read consumes at least the terminator; `WriteRead` states what it consumed |
| NullTerminated.ReadWrite | gmpublish/Program.cs:173-174 | reading back a string written without NUL returns it, and leaves what followed |
| NullTerminated.WriteRead | gmpublish/Program.cs:173-174 | whatever is read is exactly the encoding of the string, then its zero byte, then the rest; and it holds no NUL |
| NullTerminated.ReadStopsAtNul | gmpublish/GMADZip/GMAD.cs:45-46 | a string holding a NUL reads back only up to that NUL |
| NullTerminated.ReadEmpty | gmpublish/Program.cs:170 | reading the empty string consumes exactly one zero byte |
| NullTerminated.WriteWithNul | gmpublish/GMADZip/GMAD.cs:45-46 | a string with a NUL inside is written exactly as the part before the NUL and the part after it, each as its own null-terminated string |
| Utf8.DecodeEncodedString | gmpublish/GMADZip/GMAD.cs:45-47 | decoding undoes the writer's UTF-8 encoding for every string |
| Utf8.EncodeDecodedString | gmpublish/Program.cs:173-174 | bytes that decode are exactly the encoding of what they decode to |
| Utf8.ZeroByteIffNul | gmpublish/GMADZip/GMAD.cs:45-47 | an encoded string has a zero byte exactly when the string has a NUL |
| Utf8.EncodeChar | gmpublish/GMADZip/GMAD.cs:40-44 | a character is written as one to four bytes, one exactly for ASCII, a zero byte only for NUL |
| Bytes.ReadUInt32Of | gmpublish/GMADZip/GMAD.cs:56-63 | a 32-bit unsigned field reads back as written and leaves what follows |
| Bytes.ReadInt32Of | gmpublish/GMADZip/GMAD.cs:48 | a 32-bit signed field reads back as written |
| Bytes.ReadUInt64Of | gmpublish/GMADZip/GMAD.cs:42 | a 64-bit unsigned field reads back as written |
| Bytes.ReadInt64Of | gmpublish/GMADZip/GMAD.cs:43 | a 64-bit signed field, as the timestamp here and the sizes at line 58, reads back as written |
| Bytes.SignedRoundTrips | gmpublish/GMADZip/GMAD.cs:59 | reinterpreting between signed and unsigned widths is a bijection, as `(uint)f.Crc` is |
| Bytes.FromLEOfLE | gmpublish/GMADZip/GMAD.cs:42-63 | little-endian decoding inverts little-endian encoding |
| Bytes.LEOfFromLE | gmpublish/GMADZip/GMAD.cs:84 | little-endian encoding inverts decoding |
| Crc32.ComputeChecksumChunked | gmpublish/GMADZip/GMAD.cs:78-84 | the checksum accumulated chunk by chunk equals the CRC-32 of the concatenated bytes |
| Crc32.ComputeChecksum | gmpublish/GMADZip/GMAD.cs:82 | streaming the bytes through the register gives their CRC-32 |
| Crc32.RegisterAppend | gmpublish/GMADZip/GMAD.cs:82 | feeding two pieces in turn leaves the register where feeding their concatenation does |
| Crc32.CheckValue | gmpublish/GMADZip/GMAD.cs:82 | the CRC-32 of the ASCII digits "123456789" is the standard check value 0xCBF43926 |
| Text.LowersToIff | gmpublish/GMADZip/GMAD.cs:14 | the character-by-character comparison used for the manifest name holds exactly when lower-casing the name gives the expected text |
| Text.ToLowerIsLower | gmpublish/GMADZip/GMAD.cs:14-20 | lower-casing leaves no ASCII upper-case letter ('A'..'Z') and is idempotent |
| Text.FileName | gmpublish/GMADZip/GMAD.cs:14 | the base name of a path holds no '/' and is the tail of the path |
| Text.RootFolder | gmpublish/GMADZip/GMAD.cs:26 | the root folder is a prefix of the manifest path |
| Text.TrimStartString | gmpublish/GMADZip/GMAD.cs:20 | stripping a prefix leaves a tail of the input that no longer starts with that prefix, unless the prefix is empty; an empty or absent prefix leaves the input unchanged |
| Text.TrimStartStringCopies | gmpublish/GMADZip/GMAD.cs:20 | what is stripped is a whole number of copies of the prefix, so the input is those copies followed by the result |
| Text.PathSplit | gmpublish/GMADZip/GMAD.cs:14-26 | a path is its root folder, a '/' and its file name, or just its file name at top level |
| Program.FindArgumentValue | gmpublish/Program.cs:135-147 | the result is the argument after the first occurrence of the flag at positions 1 to |args|-2; it is null exactly when the flag occurs at none of them |
| Program.FindArgumentValueLoop | gmpublish/Program.cs:137-141 | the `for` loop with its early return computes the same lookup |
| Program.FirstFlagWins | gmpublish/Program.cs:137-140 | the first occurrence of a flag decides its value |
| Program.VerbAndLastAreNotFlags | gmpublish/Program.cs:136-146 | the verb is never read as a flag, and a flag given only as the last argument has no value |
| Program.ValueMayBeFlag | gmpublish/Program.cs:136-141 | arguments are not taken in pairs: a value equal to another flag's name also counts as that flag |
| Program.Credential | gmpublish/Program.cs:60-67 | a credential is available exactly when its flag occurs at a position 1 to |args|-2 or the variable is set; the argument after the flag's first occurrence wins, and without the flag the environment's value is taken |
| Program.Required | gmpublish/Program.cs:142-146 | a required argument is found exactly when its flag occurs at a position 1 to |args|-2; it is the argument after the first occurrence, and a missing one gives exit code 8 |
| Program.RequiredFile | gmpublish/Program.cs:80-84 | a file argument gives 8 when absent, 9 when the path names no existing file, else its path (a path that makes `new FileInfo` throw is not modelled) |
| Program.Command | gmpublish/Program.cs:76-105 | only the verbs create, update and list are accepted, and failures exit with 8 or 9 |
| Program.Resolve | gmpublish/Program.cs:52-105 | no arguments means an immediate return, failures exit with 8 or 9, and a command runs with the resolved credentials |
| Program.MissingCredentialsExit | gmpublish/Program.cs:60-73 | without a user or a password, from either source, every command exits with 8 before its verb is examined |
| Program.UnknownVerbExits | gmpublish/Program.cs:101-104 | any verb other than create, update and list exits with 8 |
| Program.CreateRuns | gmpublish/Program.cs:77-85 | `create` runs exactly when `-addon` and `-icon` both have values naming existing files, and it runs with those paths |
| Program.CreateFailureOrder | gmpublish/Program.cs:80-84 | a missing `-addon` exits with 8, and an addon path that names no existing file exits with 9, before `-icon` is examined (a path that makes `new FileInfo` throw is not modelled) |
| Program.UpdateRuns | gmpublish/Program.cs:86-97 | `update` runs exactly when `-addon` names an existing file and `-id` has a value, kept as a string (`int.Parse` of it is not modelled); `-icon` is optional but must exist when given |
| Program.ListRuns | gmpublish/Program.cs:98-100 | `list` needs no argument beyond the credentials |
| Program.CredentialFallback | gmpublish/Program.cs:60-67 | the environment alone supplies the credentials, and a `-user` argument overrides the environment |

## Left out

- Steam connection, login, workshop queries and uploads are network I/O and are not modelled. This covers everything in `Main` after the arguments are resolved, and the callbacks.
- SHA-1 hashing and LZMA compression are library calls whose source is not part of this model.
- Console output, and the megabyte figures in the listing, are output formatting.
- Reading the manifest JSON and `BuildDescription` are the `parse` parameter. Turning the probed description into `DescriptionJSON` is also left out: the probe returns the raw string.
- `Whitelist.Check` is the `allowed` parameter.
- `DateTime.Now.ToUnixTime()` is the `now` parameter, taken as a 64-bit value.
- `Program.Resolve`: `int.Parse` of `-id` is not modelled. The id is kept as the argument string, so a non-numeric id does not show up as the unhandled exception it causes.
- `Program.Resolve`: an invalid path that makes `new FileInfo` throw is not modelled. Only existence is.
- `Program.UpdateRuns`: promises that `update` runs whenever `-id` has a value. `int.Parse` at line 92 of `Program.cs` throws on a value that is not a 32-bit decimal integer ("abc", "", "4294967296"), so the program ends with an unhandled exception where the model runs the command.
- `Program.RequiredFile`: gives 9 for any path that names no existing file. `new FileInfo` at line 150 of `Program.cs` throws on an empty or invalid path (`-addon ""`), so the program ends with an unhandled exception instead of exiting with 9.
- `Program.CreateFailureOrder`: the exit with 9 for the addon path has the same gap as `Program.RequiredFile`. An empty or invalid path throws in `new FileInfo` instead.
- `Gmad.Assemble`: succeeds for a package of any size. The source buffers each member in a `MemoryStream` (lines 67-71 of `GMAD.cs`), copies the package into a `byte[]` of the stream's length and passes `(int)` of that length (lines 80-81), so a package of 2^31 bytes (2 GiB) or more fails with an exception. The same holds for `Gmad.Create` and `Gmad.CreateAsWritten`, which are built on it.
- `Text.ToLowerIsLower`: states that no ASCII upper-case letter remains. The model's `ToLower` leaves non-ASCII letters such as "É" unchanged, where `ToLowerInvariant` lower-cases them (see `Gmad.FormatFilename`).
- The sources of several helpers are not part of this model: `Extensions.GetRootFolder`, the `TrimStart(string)` extension, `WriteNullTerminatedString`, `ReadNullTerminatedString` and `CRC32.ComputeChecksum`. They are taken as follows:
  - `GetRootFolder` gives the parent folder without its trailing '/', or "" at top level;
  - `TrimStart(string)` removes the prefix for as long as it repeats, and removes nothing for an empty prefix;
  - `WriteNullTerminatedString` writes the UTF-8 bytes of the string, then one zero byte;
  - `ReadNullTerminatedString` reads strict UTF-8 up to the first zero byte and consumes that byte;
  - `CRC32.ComputeChecksum` is the standard reflected CRC-32 (polynomial 0xEDB88320, initial value and final XOR 0xFFFFFFFF), written as a 4-byte `uint`.
- `Gmad.FormatFilename`: lower-cases ASCII letters only. `ToLowerInvariant` at line 20 of `GMAD.cs` also lower-cases non-ASCII letters, so a path such as "É.lua" is written as "é.lua" by the program but kept as "É.lua" by the model.
- `ToLower` and `ToLowerInvariant` are modelled as ASCII lower-casing. That is exact for the comparison with "addon.json", but it does not cover non-ASCII letters in written paths.
- `Gmad.Lookup`: `zip[name]` is modelled as an exact-name lookup. The zip library's own lookup can ignore case and normalise separators.
- `Utf8.DecodeChar`: invalid UTF-8 makes the model's reader fail. .NET's reader substitutes U+FFFD instead.
- `GmadReader.ReadAddonInfo`: a stream shorter than its reads makes .NET throw. The model returns `None`.
- `Gmad.Create`: packs the corrected selection, only members inside the root folder, and not the selection at line 50 as written. `Gmad.CreateAsWritten` packs line 50's selection and has the same round-trip lemmas.
- `Gmad.ManifestPathByFileName` and `Text.FileName`: '/' is the only path separator. On Windows, `Path.GetFileName` also splits at '\\' and ':'. The .NET Framework also throws on names holding invalid path characters.
- `Gmad.SelectedAsWritten`: `StartsWith(string)` and `EndsWith(string)` compare by the current culture in .NET. The model compares character by character, which agrees with the culture comparison only for cultures without contractions over ASCII letters (such as Czech "ch" or Danish "aa") and for paths without the control characters a culture comparison ignores.
- `Gmad.Create`: on a failure part-way through, the stream keeps partial output. The model returns only the error.
- `Gmad.Create`: the file-list query is enumerated twice, once for the table and once for the payload. The model assumes the archive does not change in between, so both passes see one list.
- `GmadReader.CreateRoundTrip` requires fewer than 2^32 archive members, no NUL in the title, the description or any path, and recorded sizes that match the contents. Without these the package does not read back. `Gmad.FormatFilenameNoNul` and `NullTerminated.ReadStopsAtNul` describe the NUL case.

## Findings

| source | as written | input that shows it | evidently intended | confidence | as-written member | corrected member |
|---|---|---|---|---|---|---|
| gmpublish/GMADZip/GMAD.cs:50 | a member is packed when its path starts with the root folder's name | manifest at "x/addon.json"; the member "xlua/foo.lua" passes the test and is packed as "lua/foo.lua" | only members inside the root folder ("x/…") are packed | not executed; assumes `GetRootFolder` returns the folder without its trailing '/' | Gmad.SiblingFolderLeak | Gmad.FileListMembership |

`Gmad.CreateAsWritten` packs the selection as written (`Gmad.FileListAsWritten`).
`GmadReader.CreateAsWrittenRoundTrip` shows that its output still decodes, sibling
members included. `Gmad.Create` packs the corrected selection (`Gmad.FileList`).
`Gmad.FileListAgreement` shows that the two selections agree on every archive in
which no path extends the root folder's name.

=== FILE: bytes.dfy ===
/**
 * Bytes and the fixed-width little-endian integers that .NET's BinaryWriter
 * emits: `Write(uint)`, `Write(ulong)`, `Write(long)` and `Write(int)`, and the
 * matching BinaryReader reads.
 */
module Bytes {
  import opened Common

  newtype byte = x: int | 0 <= x < 0x100
  type bytes = seq<byte>

  type uint32 = n: int | 0 <= n < 0x1_0000_0000
  type int32 = n: int | -0x8000_0000 <= n < 0x8000_0000
  type uint64 = n: int | 0 <= n < 0x1_0000_0000_0000_0000
  type int64 = n: int | -0x8000_0000_0000_0000 <= n < 0x8000_0000_0000_0000

  /** 256 to the power `n`: the number of values that fit in `n` bytes. */
  function Pow256(n: nat): (r: nat)
    ensures r >= 1
  {
    if n == 0 then 1 else 256 * Pow256(n - 1)
  }

  lemma Pow256Widths()
    ensures Pow256(4) == 0x1_0000_0000
    ensures Pow256(8) == 0x1_0000_0000_0000_0000
  {
  }

  /** The `width` bytes of `n`, least significant first. */
  function LE(n: nat, width: nat): (r: bytes)
    requires n < Pow256(width)
    ensures |r| == width
    decreases width
  {
    if width == 0 then [] else [(n % 256) as byte] + LE(n / 256, width - 1)
  }

  /** The number whose little-endian encoding is `bs`. */
  function FromLE(bs: bytes): (n: nat)
    ensures n < Pow256(|bs|)
  {
    if |bs| == 0 then 0
    else
      var high := FromLE(bs[1..]);
      assert high <= Pow256(|bs| - 1) - 1;
      assert 256 * high <= 256 * Pow256(|bs| - 1) - 256;
      bs[0] as nat + 256 * high
  }

  lemma {:induction false} FromLEOfLE(n: nat, width: nat)
    requires n < Pow256(width)
    ensures FromLE(LE(n, width)) == n
    decreases width
  {
    if width > 0 {
      var r := LE(n, width);
      assert r[1..] == LE(n / 256, width - 1);
      FromLEOfLE(n / 256, width - 1);
    }
  }

  lemma {:induction false} LEOfFromLE(bs: bytes)
    ensures LE(FromLE(bs), |bs|) == bs
  {
    if |bs| > 0 {
      LEOfFromLE(bs[1..]);
      var n := FromLE(bs);
      assert n % 256 == bs[0] as nat;
      assert n / 256 == FromLE(bs[1..]);
    }
  }

  /** `Write(uint)`: four little-endian bytes. */
  function UInt32Le(n: uint32): (r: bytes)
    ensures |r| == 4
  {
    Pow256Widths();
    LE(n, 4)
  }

  /** `Write(ulong)`: eight little-endian bytes. */
  function UInt64Le(n: uint64): (r: bytes)
    ensures |r| == 8
  {
    Pow256Widths();
    LE(n, 8)
  }

  /** Two's-complement reinterpretation of a signed 32-bit value, as C#'s `(uint)` cast does. */
  function AsUInt32(v: int32): (r: uint32)
    ensures v >= 0 ==> r == v
    ensures v < 0 ==> r >= 0x8000_0000 && r - v == 0x1_0000_0000
  {
    if v < 0 then v + 0x1_0000_0000 else v
  }

  /** Two's-complement reading of a 32-bit pattern as a signed value. */
  function AsInt32(n: uint32): int32 {
    if n >= 0x8000_0000 then n - 0x1_0000_0000 else n
  }

  function AsUInt64(v: int64): uint64 {
    if v < 0 then v + 0x1_0000_0000_0000_0000 else v
  }

  function AsInt64(n: uint64): int64 {
    if n >= 0x8000_0000_0000_0000 then n - 0x1_0000_0000_0000_0000 else n
  }

  /** The signed/unsigned reinterpretations are inverse bijections in both directions. */
  lemma SignedRoundTrips(v: int32, n: uint32, w: int64, m: uint64)
    ensures AsInt32(AsUInt32(v)) == v && AsUInt32(AsInt32(n)) == n
    ensures AsInt64(AsUInt64(w)) == w && AsUInt64(AsInt64(m)) == m
  {
  }

  /** `Write(int)`: four little-endian bytes of the two's-complement pattern. */
  function Int32Le(v: int32): (r: bytes)
    ensures |r| == 4
  {
    UInt32Le(AsUInt32(v))
  }

  /** `Write(long)`: eight little-endian bytes of the two's-complement pattern. */
  function Int64Le(v: int64): (r: bytes)
    ensures |r| == 8
  {
    UInt64Le(AsUInt64(v))
  }

  /** Reads `width` little-endian bytes from the front of `s`; the rest of `s` is returned. */
  function ReadLE(s: bytes, width: nat): (r: Option<(nat, bytes)>)
    ensures r.Some? <==> width <= |s|
    ensures r.Some? ==> r.value.0 < Pow256(width) && r.value.1 == s[width..]
  {
    if |s| < width then None else Some((FromLE(s[..width]), s[width..]))
  }

  function ReadUInt32(s: bytes): (r: Option<(uint32, bytes)>)
    ensures r.Some? <==> |s| >= 4
    ensures r.Some? ==> r.value.1 == s[4..]
  {
    Pow256Widths();
    var (n, rest) :- ReadLE(s, 4);
    Some((n, rest))
  }

  function ReadInt32(s: bytes): (r: Option<(int32, bytes)>)
    ensures r.Some? <==> |s| >= 4
    ensures r.Some? ==> r.value.1 == s[4..]
  {
    var (n, rest) :- ReadUInt32(s);
    Some((AsInt32(n), rest))
  }

  function ReadUInt64(s: bytes): (r: Option<(uint64, bytes)>)
    ensures r.Some? <==> |s| >= 8
    ensures r.Some? ==> r.value.1 == s[8..]
  {
    Pow256Widths();
    var (n, rest) :- ReadLE(s, 8);
    Some((n, rest))
  }

  function ReadInt64(s: bytes): (r: Option<(int64, bytes)>)
    ensures r.Some? <==> |s| >= 8
    ensures r.Some? ==> r.value.1 == s[8..]
  {
    var (n, rest) :- ReadUInt64(s);
    Some((AsInt64(n), rest))
  }

  /** Reading a little-endian field returns the value written and leaves what followed it. */
  lemma ReadLEOfLE(n: nat, width: nat, rest: bytes)
    requires n < Pow256(width)
    ensures ReadLE(LE(n, width) + rest, width) == Some((n, rest))
  {
    var s := LE(n, width) + rest;
    assert s[..width] == LE(n, width);
    assert s[width..] == rest;
    FromLEOfLE(n, width);
  }

  lemma ReadUInt32Of(n: uint32, rest: bytes)
    ensures ReadUInt32(UInt32Le(n) + rest) == Some((n, rest))
  {
    Pow256Widths();
    ReadLEOfLE(n, 4, rest);
  }

  lemma ReadInt32Of(v: int32, rest: bytes)
    ensures ReadInt32(Int32Le(v) + rest) == Some((v, rest))
  {
    ReadUInt32Of(AsUInt32(v), rest);
  }

  lemma ReadUInt64Of(n: uint64, rest: bytes)
    ensures ReadUInt64(UInt64Le(n) + rest) == Some((n, rest))
  {
    Pow256Widths();
    ReadLEOfLE(n, 8, rest);
  }

  lemma ReadInt64Of(v: int64, rest: bytes)
    ensures ReadInt64(Int64Le(v) + rest) == Some((v, rest))
  {
    ReadUInt64Of(AsUInt64(v), rest);
  }

  /** Concatenation of a sequence of byte strings, in order, with nothing between them. */
  function Concat(parts: seq<bytes>): (r: bytes)
    ensures |r| == SumLengths(parts)
  {
    if |parts| == 0 then [] else parts[0] + Concat(parts[1..])
  }

  function SumLengths(parts: seq<bytes>): nat {
    if |parts| == 0 then 0 else |parts[0]| + SumLengths(parts[1..])
  }

  /** Concatenation regrouped to the right, for three to six byte strings. */
  lemma Associate3(a: bytes, b: bytes, c: bytes)
    ensures (a + b) + c == a + (b + c)
  {
  }

  lemma Associate4(a: bytes, b: bytes, c: bytes, d: bytes)
    ensures a + b + c + d == a + (b + (c + d))
  {
  }

  lemma Associate5(a: bytes, b: bytes, c: bytes, d: bytes, e: bytes)
    ensures a + b + c + d + e == a + (b + (c + (d + e)))
  {
  }

  lemma Associate6(a: bytes, b: bytes, c: bytes, d: bytes, e: bytes, f: bytes)
    ensures a + b + c + d + e + f == a + (b + (c + (d + (e + f))))
  {
  }
}

=== FILE: common.dfy ===
/** Failure-compatible wrappers shared by every module of the model. */
module Common {

  /** An optional value; `None` stands for the source's `null` or a thrown exception. */
  datatype Option<+T> = None | Some(value: T) {

    predicate IsFailure() {
      None?
    }

    function PropagateFailure<U>(): Option<U>
      requires None?
    {
      None
    }

    function Extract(): T
      requires Some?
    {
      value
    }

    /** The value if present, otherwise `other` (the source's `x ?? other` and `if (x == null) x = other`). */
    function OrElse(other: Option<T>): Option<T> {
      if Some? then this else other
    }
  }

  /** A value or an error describing why it could not be produced. */
  datatype Result<+T, +E> = Ok(value: T) | Err(error: E) {

    predicate IsFailure() {
      Err?
    }

    function PropagateFailure<U>(): Result<U, E>
      requires Err?
    {
      Err(error)
    }

    function Extract(): T
      requires Ok?
    {
      value
    }
  }
}

=== FILE: crc32.dfy ===
/**
 * `CRC32.ComputeChecksum`, whose source is not part of this model, taken to be
 * CRC-32 as used by ZIP (ISO/IEC 3309, IEEE 802.3): reflected polynomial
 * 0xEDB88320, initial register 0xFFFFFFFF, final XOR 0xFFFFFFFF.
 */
module Crc32 {
  import opened Bytes

  const Polynomial: bv32 := 0xEDB8_8320

  /** Division steps per input byte. */
  const BitsPerByte: nat := 8

  /** `k` steps of bit-serial polynomial division of the reflected register. */
  function Shift(reg: bv32, k: nat): bv32
    decreases k
  {
    if k == 0 then reg
    else Shift(if reg & 1 == 1 then (reg >> 1) ^ Polynomial else reg >> 1, k - 1)
  }

  /** Feeds one byte into the register: one division step per bit. */
  function Step(reg: bv32, b: byte): bv32 {
    Shift(reg ^ (b as bv32), BitsPerByte)
  }

  /** The register after feeding `data` in order, starting from `reg`. */
  function Register(reg: bv32, data: bytes): bv32
    decreases |data|
  {
    if |data| == 0 then reg else Step(Register(reg, data[..|data| - 1]), data[|data| - 1])
  }

  /** The CRC-32 of `data`. */
  function Checksum(data: bytes): uint32 {
    Finish(Register(Initial, data))
  }

  const Initial: bv32 := 0xFFFF_FFFF

  /** The final XOR that turns a register into the published checksum. */
  function Finish(reg: bv32): uint32 {
    (reg ^ 0xFFFF_FFFF) as int
  }

  /** Feeding `a` and then `b` leaves the register where feeding `a + b` does. */
  lemma {:induction false} RegisterAppend(reg: bv32, a: bytes, b: bytes)
    ensures Register(reg, a + b) == Register(Register(reg, a), b)
    decreases |b|
  {
    if |b| == 0 {
      assert a + b == a;
    } else {
      var ab := a + b;
      assert ab[..|ab| - 1] == a + b[..|b| - 1];
      assert ab[|ab| - 1] == b[|b| - 1];
      assert Register(reg, ab) == Step(Register(reg, a + b[..|b| - 1]), b[|b| - 1]);
      RegisterAppend(reg, a, b[..|b| - 1]);
    }
  }

  /** Feeds `chunk` into the register one byte at a time. */
  method Feed(start: bv32, chunk: bytes) returns (reg: bv32)
    ensures reg == Register(start, chunk)
  {
    reg := start;
    var i := 0;
    while i < |chunk|
      invariant 0 <= i <= |chunk|
      invariant reg == Register(start, chunk[..i])
    {
      assert chunk[..i + 1][..i] == chunk[..i];
      assert Register(start, chunk[..i + 1]) == Step(Register(start, chunk[..i]), chunk[i]);
      reg := Step(reg, chunk[i]);
      i := i + 1;
    }
    assert chunk[..|chunk|] == chunk;
  }

  /** Checksum of `data` computed by streaming it one byte at a time. */
  method ComputeChecksum(data: bytes) returns (crc: uint32)
    ensures crc == Checksum(data)
  {
    var reg := Feed(Initial, data);
    crc := Finish(reg);
  }

  /**
   * Checksum of the concatenation of `chunks`, accumulated chunk by chunk as the
   * bytes are written, without materialising the concatenation.
   */
  method ComputeChecksumChunked(chunks: seq<bytes>) returns (crc: uint32)
    ensures crc == Checksum(Concat(chunks))
  {
    var reg: bv32 := Initial;
    var k := 0;
    while k < |chunks|
      invariant 0 <= k <= |chunks|
      invariant reg == Register(Initial, Concat(chunks[..k]))
    {
      ConcatSnoc(chunks[..k], chunks[k]);
      assert chunks[..k + 1] == chunks[..k] + [chunks[k]];
      RegisterAppend(Initial, Concat(chunks[..k]), chunks[k]);
      reg := Feed(reg, chunks[k]);
      k := k + 1;
    }
    assert chunks[..|chunks|] == chunks;
    crc := Finish(reg);
  }

  lemma {:induction false} ConcatSnoc(parts: seq<bytes>, last: bytes)
    ensures Concat(parts + [last]) == Concat(parts) + last
  {
    if |parts| == 0 {
      assert parts + [last] == [last];
    } else {
      assert (parts + [last])[1..] == parts[1..] + [last];
      ConcatSnoc(parts[1..], last);
    }
  }

  /** Advances a known register value over one known byte of `data`. */
  lemma RegisterStep(data: bytes, i: nat, b: byte, before: bv32, after: bv32)
    requires i < |data| && data[i] == b
    requires Register(Initial, data[..i]) == before && Step(before, b) == after
    ensures Register(Initial, data[..i + 1]) == after
  {
    assert data[..i + 1][..i] == data[..i];
  }

  /** One byte step on concrete values. */
  lemma StepValue(reg: bv32, b: byte, mixed: bv32, next: bv32)
    requires reg ^ (b as bv32) == mixed
    requires Shift(mixed, 8) == next
    ensures Step(reg, b) == next
  {
  }

  lemma DigitsOneToThree()
    ensures Step(0xFFFF_FFFF, 0x31) == 0x7C23_1048
    ensures Step(0x7C23_1048, 0x32) == 0xB0AC_BB32
    ensures Step(0xB0AC_BB32, 0x33) == 0x77B7_9C2D
  {
    StepValue(0xFFFF_FFFF, 0x31, 0xFFFF_FFCE, 0x7C23_1048);
    StepValue(0x7C23_1048, 0x32, 0x7C23_107A, 0xB0AC_BB32);
    StepValue(0xB0AC_BB32, 0x33, 0xB0AC_BB01, 0x77B7_9C2D);
  }

  lemma DigitsFourToSix()
    ensures Step(0x77B7_9C2D, 0x34) == 0x641C_1F5C
    ensures Step(0x641C_1F5C, 0x35) == 0x340A_C5E3
    ensures Step(0x340A_C5E3, 0x36) == 0xF68D_2C9E
  {
    StepValue(0x77B7_9C2D, 0x34, 0x77B7_9C19, 0x641C_1F5C);
    StepValue(0x641C_1F5C, 0x35, 0x641C_1F69, 0x340A_C5E3);
    StepValue(0x340A_C5E3, 0x36, 0x340A_C5D5, 0xF68D_2C9E);
  }

  lemma DigitsSevenToNine()
    ensures Step(0xF68D_2C9E, 0x37) == 0xAFFC_9660
    ensures Step(0xAFFC_9660, 0x38) == 0x651F_2550
    ensures Step(0x651F_2550, 0x39) == 0x340B_C6D9
  {
    StepValue(0xF68D_2C9E, 0x37, 0xF68D_2CA9, 0xAFFC_9660);
    StepValue(0xAFFC_9660, 0x38, 0xAFFC_9658, 0x651F_2550);
    StepValue(0x651F_2550, 0x39, 0x651F_2569, 0x340B_C6D9);
  }

  /** True of the ASCII digits "123456789", the conventional CRC test input. */
  predicate IsCheckInput(d: bytes) {
    |d| == 9 && forall i | 0 <= i < 9 :: d[i] == 0x31 + i as byte
  }

  lemma CheckInputHalfway(d: bytes)
    requires IsCheckInput(d)
    ensures Register(Initial, d[..5]) == 0x340A_C5E3
  {
    DigitsOneToThree();
    DigitsFourToSix();
    assert d[..0] == [];
    RegisterStep(d, 0, 0x31, 0xFFFF_FFFF, 0x7C23_1048);
    RegisterStep(d, 1, 0x32, 0x7C23_1048, 0xB0AC_BB32);
    RegisterStep(d, 2, 0x33, 0xB0AC_BB32, 0x77B7_9C2D);
    RegisterStep(d, 3, 0x34, 0x77B7_9C2D, 0x641C_1F5C);
    RegisterStep(d, 4, 0x35, 0x641C_1F5C, 0x340A_C5E3);
  }

  lemma CheckInputRegister(d: bytes)
    requires IsCheckInput(d)
    ensures Register(Initial, d) == 0x340B_C6D9
  {
    CheckInputHalfway(d);
    DigitsFourToSix();
    DigitsSevenToNine();
    RegisterStep(d, 5, 0x36, 0x340A_C5E3, 0xF68D_2C9E);
    RegisterStep(d, 6, 0x37, 0xF68D_2C9E, 0xAFFC_9660);
    RegisterStep(d, 7, 0x38, 0xAFFC_9660, 0x651F_2550);
    assert d[..|d| - 1] == d[..8];
  }

  /** The standard check value: CRC-32 of the ASCII digits "123456789" is 0xCBF43926. */
  lemma CheckValue(d: bytes)
    requires IsCheckInput(d)
    ensures Checksum(d) == 0xCBF4_3926
  {
    CheckInputRegister(d);
  }
}

=== FILE: cstring.dfy ===
/**
 * Null-terminated strings as exchanged by the `WriteNullTerminatedString` and
 * `ReadNullTerminatedString` extensions, whose source is not part of this
 * model. They are taken to be the UTF-8 bytes of the string followed by one
 * zero byte; reading takes strict UTF-8 up to the first zero byte.
 */
module NullTerminated {
  import opened Common
  import opened Bytes
  import Utf8

  /** `WriteNullTerminatedString(s)`. */
  function Write(s: string): (r: bytes)
    ensures |r| >= 1 && r[|r| - 1] == 0
  {
    Utf8.EncodeString(s) + [0]
  }

  /** Index of the first zero byte of `s`, if any. */
  function FirstZero(s: bytes): (r: Option<nat>)
    ensures r.None? <==> 0 !in s
    ensures r.Some? ==> r.value < |s| && s[r.value] == 0 && 0 !in s[..r.value]
  {
    if |s| == 0 then None
    else if s[0] == 0 then Some(0)
    else
      var k :- FirstZero(s[1..]);
      assert s[..k + 1] == [s[0]] + s[1..][..k];
      Some(k + 1)
  }

  /**
   * `ReadNullTerminatedString()`: decodes the bytes up to the first zero byte
   * and returns the string together with what follows that zero byte. There is
   * no string when the input ends before a zero byte or the bytes are not UTF-8.
   */
  function Read(s: bytes): (r: Option<(string, bytes)>)
    ensures r.Some? ==> |r.value.1| < |s|
  {
    var z :- FirstZero(s);
    var text :- Utf8.DecodeString(s[..z]);
    Some((text, s[z + 1..]))
  }

  /** Reading back a written string returns it, and what followed, whenever it has no NUL. */
  lemma ReadWrite(text: string, rest: bytes)
    requires '\0' !in text
    ensures Read(Write(text) + rest) == Some((text, rest))
  {
    var e := Utf8.EncodeString(text);
    var s := Write(text) + rest;
    Utf8.ZeroByteIffNul(text);
    assert s[..|e|] == e;
    FirstZeroAt(s, |e|);
    Utf8.DecodeEncodedString(text);
    assert s[|e| + 1..] == rest;
  }

  /** Whatever is read is what was written: the bytes are the string's encoding, its NUL, and the rest. */
  lemma WriteRead(s: bytes)
    requires Read(s).Some?
    ensures s == Write(Read(s).value.0) + Read(s).value.1
    ensures '\0' !in Read(s).value.0
  {
    var z := FirstZero(s).value;
    var text := Read(s).value.0;
    Utf8.EncodeDecodedString(s[..z]);
    Utf8.ZeroByteIffNul(text);
    SplitAtZero(s, z, Utf8.EncodeString(text), Read(s).value.1);
  }

  lemma SplitAtZero(s: bytes, z: nat, head: bytes, rest: bytes)
    requires z < |s| && s[z] == 0 && head == s[..z] && rest == s[z + 1..]
    ensures s == (head + [0]) + rest
  {
    assert s == s[..z] + [0] + s[z + 1..];
  }

  /** Reading the empty string consumes exactly one zero byte. */
  lemma ReadEmpty(s: bytes)
    requires Read(s).Some? && Read(s).value.0 == ""
    ensures |s| >= 1 && s[0] == 0 && s[1..] == Read(s).value.1
  {
    WriteRead(s);
    assert Write("") == [0];
  }

  lemma FirstZeroAt(s: bytes, k: nat)
    requires k < |s| && s[k] == 0 && 0 !in s[..k]
    ensures FirstZero(s) == Some(k)
  {
  }

  /** A string holding a NUL is read back only up to that NUL. */
  lemma ReadStopsAtNul(before: string, after: string, rest: bytes)
    requires '\0' !in before
    ensures Read(Write(before + ['\0'] + after) + rest) == Some((before, Write(after) + rest))
  {
    WriteWithNul(before, after);
    Associate3(Write(before), Write(after), rest);
    ReadWrite(before, Write(after) + rest);
  }

  /** Writing a string with a NUL inside writes the part before it and the part after it as two strings. */
  lemma WriteWithNul(before: string, after: string)
    ensures Write(before + ['\0'] + after) == Write(before) + Write(after)
  {
    var x := ['\0'] + after;
    assert before + ['\0'] + after == before + x;
    EncodeAppend(before, x);
    EncodeNulFirst(after);
    TerminatorsRegroup(Utf8.EncodeString(before), Utf8.EncodeString(after));
  }

  lemma EncodeNulFirst(after: string)
    ensures Utf8.EncodeString(['\0'] + after) == [0] + Utf8.EncodeString(after)
  {
    assert (['\0'] + after)[1..] == after;
  }

  lemma TerminatorsRegroup(a: bytes, b: bytes)
    ensures (a + ([0] + b)) + [0] == (a + [0]) + (b + [0])
  {
  }

  lemma {:induction false} EncodeAppend(a: string, b: string)
    ensures Utf8.EncodeString(a + b) == Utf8.EncodeString(a) + Utf8.EncodeString(b)
  {
    if |a| > 0 {
      assert (a + b)[1..] == a[1..] + b;
      EncodeAppend(a[1..], b);
    } else {
      assert a + b == b;
    }
  }
}

=== FILE: gmad.dfy ===
/**
 * The GMAD package encoder (`GMAD.Create` and its helpers): turns the members
 * of a zip archive into one flat addon package made of a header, a file table,
 * a zero terminator, the file contents and a trailing CRC-32.
 */
module Gmad {
  import opened Common
  import opened Bytes
  import opened Text
  import Utf8
  import Crc32
  import NullTerminated

  /**
   * One member of the source zip archive. `content` is what extracting the
   * member yields, or `None` when extraction fails.
   */
  datatype Entry = Entry(fileName: string, uncompressedSize: int64, crc: int32, content: Option<bytes>)

  /** The addon metadata the encoder needs: the manifest's title and its built description. */
  datatype Manifest = Manifest(title: string, description: string)

  datatype CreateError =
    | ManifestNotFound            // no member is named addon.json
    | ManifestParseError          // the manifest is not valid addon JSON
    | MemberReadError(path: string) // extracting this member failed

  /** One record of the file table, before it is numbered. */
  datatype TableRow = TableRow(name: string, size: int64, crc: uint32)

  const ManifestFileName := "addon.json"
  const AuthorPlaceholder := "Author Name"
  const FormatVersion: byte := 3
  const FormatRevision: int32 := 1

  /**
   * True when `path` names a manifest: its last ten characters, lower-cased,
   * are "addon.json" and they are the whole path or follow a '/'.
   * `ManifestPathByFileName` shows this is `Path.GetFileName(path).ToLower() == "addon.json"`.
   */
  predicate IsManifestPath(path: string) {
    var n := |ManifestFileName|;
    |path| >= n && LowersTo(path[|path| - n..], ManifestFileName) && (|path| == n || path[|path| - n - 1] == '/')
  }

  /** The manifest test is the source's: the lower-cased base file name is "addon.json". */
  lemma ManifestPathByFileName(path: string)
    ensures IsManifestPath(path) <==> ToLower(FileName(path)) == ManifestFileName
  {
    if ToLower(FileName(path)) == ManifestFileName {
      FileNameMakesManifest(path);
    }
    if IsManifestPath(path) {
      ManifestHasFileName(path);
    }
  }

  lemma FileNameMakesManifest(path: string)
    requires ToLower(FileName(path)) == ManifestFileName
    ensures IsManifestPath(path)
  {
    var n := |ManifestFileName|;
    var k := LastIndexOf(path, '/');
    var name := FileName(path);
    assert name == path[k + 1..];
    assert |name| == n;
    assert path[|path| - n..] == name;
    LowersToIff(name, ManifestFileName);
  }

  lemma ManifestHasFileName(path: string)
    requires IsManifestPath(path)
    ensures ToLower(FileName(path)) == ManifestFileName
  {
    var n := |ManifestFileName|;
    var tail := path[|path| - n..];
    LowersToIff(tail, ManifestFileName);
    LoweredManifestHasNoSlash(tail);
    var k := LastIndexOf(path, '/');
    assert forall i | |path| - n <= i < |path| :: path[i] == tail[i - (|path| - n)];
    assert k == |path| - n - 1;
    assert FileName(path) == tail;
  }

  lemma LoweredManifestHasNoSlash(t: string)
    requires ToLower(t) == ManifestFileName
    ensures '/' !in t
  {
    forall i | 0 <= i < |t|
      ensures t[i] != '/'
    {
      assert LowerChar(t[i]) == ManifestFileName[i];
    }
  }

  function FileNames(entries: seq<Entry>): (r: seq<string>)
    ensures |r| == |entries|
    ensures forall i | 0 <= i < |entries| :: r[i] == entries[i].fileName
  {
    seq(|entries|, i requires 0 <= i < |entries| => entries[i].fileName)
  }

  lemma EmptyPathIsNotManifest()
    ensures !IsManifestPath("")
  {
    assert FileName("") == "";
  }

  /** Index of the first name that names a manifest, if any. */
  function ManifestIndex(names: seq<string>): (r: Option<nat>)
    ensures r.None? <==> forall i | 0 <= i < |names| :: !IsManifestPath(names[i])
    ensures r.Some? ==> r.value < |names| && IsManifestPath(names[r.value])
    ensures r.Some? ==> forall j | 0 <= j < r.value :: !IsManifestPath(names[j])
  {
    if |names| == 0 then None
    else if IsManifestPath(names[0]) then Some(0)
    else
      var k :- ManifestIndex(names[1..]);
      Some(k + 1)
  }

  /**
   * `FindAddonJson`: the first name, in enumeration order, that names a
   * manifest; "" when there is none.
   */
  function FindAddonJson(names: seq<string>): (r: string)
    ensures r == "" <==> forall i | 0 <= i < |names| :: !IsManifestPath(names[i])
    ensures r != "" ==> IsManifestPath(r)
    ensures r != "" ==> exists i | 0 <= i < |names| ::
      names[i] == r && forall j | 0 <= j < i :: !IsManifestPath(names[j])
  {
    var k := ManifestIndex(names);
    if k.None? then ""
    else
      var name := names[k.value];
      assert name != "" by {
        EmptyPathIsNotManifest();
        assert IsManifestPath(name);
      }
      assert exists i | 0 <= i < |names| :: names[i] == name && forall j | 0 <= j < i :: !IsManifestPath(names[j]) by {
        assert names[k.value] == name;
      }
      name
  }

  /** `zip[name]`: the first member with exactly this name, if any. */
  function Lookup(entries: seq<Entry>, name: string): (r: Option<Entry>)
    ensures r.Some? ==> r.value in entries && r.value.fileName == name
    ensures r.None? <==> forall i | 0 <= i < |entries| :: entries[i].fileName != name
  {
    if |entries| == 0 then None
    else if entries[0].fileName == name then Some(entries[0])
    else Lookup(entries[1..], name)
  }

  /**
   * `formatFilename`: strips the root folder from the front of a member's path,
   * then every leading '/', then lower-cases what is left.
   */
  function FormatFilename(baseFolder: string, before: string): (r: string)
    ensures r == "" || r[0] != '/'
    ensures forall i | 0 <= i < |r| :: !IsUpper(r[i])
    ensures |r| <= |before|
  {
    ToLower(TrimStartChar(TrimStartString(before, baseFolder), '/'))
  }

  /** Removing a prefix that does not reappear right after itself removes it exactly once. */
  lemma TrimStartStringOnce(s: string, prefix: string)
    requires prefix != "" && StartsWith(s, prefix) && !StartsWith(s[|prefix|..], prefix)
    ensures TrimStartString(s, prefix) == s[|prefix|..]
  {
  }

  /** The path written for a member inside the root folder is its lower-cased path below that folder. */
  lemma FormatFilenameInsideRoot(baseFolder: string, relative: string)
    requires baseFolder == "" || baseFolder[0] != '/'
    requires relative == "" || relative[0] != '/'
    ensures baseFolder == "" ==> FormatFilename(baseFolder, relative) == ToLower(relative)
    ensures baseFolder != "" ==> FormatFilename(baseFolder, baseFolder + "/" + relative) == ToLower(relative)
  {
    NoLeadingSlash(relative);
    if baseFolder != "" {
      TrimRootFolder(baseFolder, relative);
      LeadingSlash(relative);
    }
  }

  /** A path that does not start with '/' keeps its front. */
  lemma NoLeadingSlash(relative: string)
    requires relative == "" || relative[0] != '/'
    ensures TrimStartChar(relative, '/') == relative
  {
  }

  /** One leading '/' is trimmed off. */
  lemma LeadingSlash(relative: string)
    ensures TrimStartChar("/" + relative, '/') == TrimStartChar(relative, '/')
  {
    assert ("/" + relative)[1..] == relative;
  }

  /** Stripping the root folder from a path inside it leaves the '/' and the path below. */
  lemma TrimRootFolder(baseFolder: string, relative: string)
    requires baseFolder != "" && baseFolder[0] != '/'
    ensures TrimStartString(baseFolder + "/" + relative, baseFolder) == "/" + relative
  {
    var name := baseFolder + "/" + relative;
    var slashed := "/" + relative;
    assert name[..|baseFolder|] == baseFolder;
    assert name[|baseFolder|..] == slashed;
    assert !StartsWith(slashed, baseFolder) by {
      assert slashed[0] != baseFolder[0];
    }
    TrimStartStringOnce(name, baseFolder);
  }

  /** The member lies in the root folder (or the root folder is the archive's top level). */
  predicate InsideRoot(baseFolder: string, name: string) {
    baseFolder == "" || StartsWith(name, baseFolder + "/")
  }

  /**
   * The file-list condition of `Create` as written: the name starts with the
   * root folder, is not a directory, and its formatted path is whitelisted.
   */
  predicate SelectedAsWritten(baseFolder: string, allowed: string -> bool, name: string) {
    StartsWith(name, baseFolder) && !EndsWith(name, "/") && allowed(FormatFilename(baseFolder, name))
  }

  /** The file-list condition with the root-folder test that was intended: the member is inside the root folder. */
  predicate Selected(baseFolder: string, allowed: string -> bool, name: string) {
    InsideRoot(baseFolder, name) && !EndsWith(name, "/") && allowed(FormatFilename(baseFolder, name))
  }

  /** The members whose names satisfy `keep`, in archive order. */
  function Filter(entries: seq<Entry>, keep: string -> bool): (r: seq<Entry>)
    ensures |r| <= |entries|
    ensures forall e | e in r :: e in entries && keep(e.fileName)
    ensures forall i | 0 <= i < |entries| && keep(entries[i].fileName) :: entries[i] in r
  {
    if |entries| == 0 then []
    else if keep(entries[0].fileName) then [entries[0]] + Filter(entries[1..], keep)
    else Filter(entries[1..], keep)
  }

  /** Filtering distributes over concatenation: the order of the archive is the order of the list. */
  lemma {:induction false} FilterAppend(a: seq<Entry>, b: seq<Entry>, keep: string -> bool)
    ensures Filter(a + b, keep) == Filter(a, keep) + Filter(b, keep)
  {
    if |a| == 0 {
      assert a + b == b;
    } else {
      var rest := a[1..];
      assert (a + b)[0] == a[0];
      assert (a + b)[1..] == rest + b;
      FilterAppend(rest, b, keep);
      if keep(a[0].fileName) {
        calc {
          Filter(a + b, keep);
          [a[0]] + Filter(rest + b, keep);
          [a[0]] + (Filter(rest, keep) + Filter(b, keep));
          ([a[0]] + Filter(rest, keep)) + Filter(b, keep);
          Filter(a, keep) + Filter(b, keep);
        }
      }
    }
  }

  /** A kept member sits in the filtered list right after the kept members that precede it. */
  lemma FilterIndex(entries: seq<Entry>, keep: string -> bool, i: nat)
    requires i < |entries| && keep(entries[i].fileName)
    ensures |Filter(entries[..i], keep)| < |Filter(entries, keep)|
    ensures Filter(entries, keep)[|Filter(entries[..i], keep)|] == entries[i]
  {
    assert entries == entries[..i] + [entries[i]] + entries[i + 1..];
    FilterAppend(entries[..i], [entries[i]], keep);
    FilterAppend(entries[..i] + [entries[i]], entries[i + 1..], keep);
    assert Filter([entries[i]], keep) == [entries[i]];
  }

  /**
   * A kept member sits in the filtered list at the position given by the number
   * of kept members before it; a later kept member sits strictly later.
   */
  lemma FilterPosition(entries: seq<Entry>, keep: string -> bool, i: nat, j: nat)
    requires i < j < |entries|
    requires keep(entries[i].fileName) && keep(entries[j].fileName)
    ensures |Filter(entries[..i], keep)| < |Filter(entries[..j], keep)| < |Filter(entries, keep)|
    ensures Filter(entries, keep)[|Filter(entries[..i], keep)|] == entries[i]
    ensures Filter(entries, keep)[|Filter(entries[..j], keep)|] == entries[j]
  {
    FilterIndex(entries, keep, i);
    FilterIndex(entries, keep, j);
    FilterIndex(entries[..j], keep, i);
    assert entries[..j][..i] == entries[..i];
  }

  /** The intended file-list condition for one root folder and whitelist, as a test on names. */
  function Keep(baseFolder: string, allowed: string -> bool): string -> bool {
    name => Selected(baseFolder, allowed, name)
  }

  /** The file-list condition as written, for one root folder and whitelist. */
  function KeepAsWritten(baseFolder: string, allowed: string -> bool): string -> bool {
    name => SelectedAsWritten(baseFolder, allowed, name)
  }

  /** The members `Create` packs, with the intended root-folder test. */
  function FileList(entries: seq<Entry>, baseFolder: string, allowed: string -> bool): seq<Entry> {
    Filter(entries, Keep(baseFolder, allowed))
  }

  /** The members the file-list query of `Create` selects as written. */
  function FileListAsWritten(entries: seq<Entry>, baseFolder: string, allowed: string -> bool): seq<Entry> {
    Filter(entries, KeepAsWritten(baseFolder, allowed))
  }

  /** A member enters the file list if and only if it is inside the root folder, not a directory, and whitelisted. */
  lemma FileListMembership(entries: seq<Entry>, baseFolder: string, allowed: string -> bool, e: Entry)
    ensures e in FileList(entries, baseFolder, allowed) <==>
      e in entries && InsideRoot(baseFolder, e.fileName) && !EndsWith(e.fileName, "/")
      && allowed(FormatFilename(baseFolder, e.fileName))
  {
    if e in entries && Selected(baseFolder, allowed, e.fileName) {
      var i :| 0 <= i < |entries| && entries[i] == e;
    }
  }

  /**
   * A member enters the file list as written if and only if its path starts
   * with the root folder's name, it is not a directory, and it is whitelisted.
   */
  lemma FileListAsWrittenMembership(entries: seq<Entry>, baseFolder: string, allowed: string -> bool, e: Entry)
    ensures e in FileListAsWritten(entries, baseFolder, allowed) <==>
      e in entries && StartsWith(e.fileName, baseFolder) && !EndsWith(e.fileName, "/")
      && allowed(FormatFilename(baseFolder, e.fileName))
  {
    if e in entries && SelectedAsWritten(baseFolder, allowed, e.fileName) {
      var i :| 0 <= i < |entries| && entries[i] == e;
    }
  }

  /** Being inside the root folder implies starting with it, so the intended list is a sub-list of the written one. */
  lemma InsideRootStartsWith(baseFolder: string, name: string)
    requires InsideRoot(baseFolder, name)
    ensures StartsWith(name, baseFolder)
  {
    if baseFolder != "" {
      assert name[..|baseFolder|] == (name[..|baseFolder| + 1])[..|baseFolder|];
    }
  }

  /**
   * When no member merely shares the root folder's name as a prefix without
   * being inside it, the written and the intended file lists are the same.
   */
  lemma {:induction false} FileListAgreement(entries: seq<Entry>, baseFolder: string, allowed: string -> bool)
    requires forall i | 0 <= i < |entries| ::
      StartsWith(entries[i].fileName, baseFolder) ==> InsideRoot(baseFolder, entries[i].fileName)
    ensures FileListAsWritten(entries, baseFolder, allowed) == FileList(entries, baseFolder, allowed)
  {
    if |entries| > 0 {
      var name := entries[0].fileName;
      if InsideRoot(baseFolder, name) {
        InsideRootStartsWith(baseFolder, name);
      }
      FileListAgreement(entries[1..], baseFolder, allowed);
    }
  }

  /** The table row `Create` writes for a packed member. */
  function Row(baseFolder: string, e: Entry): TableRow {
    TableRow(FormatFilename(baseFolder, e.fileName), e.uncompressedSize, AsUInt32(e.crc))
  }

  function Rows(baseFolder: string, files: seq<Entry>): (r: seq<TableRow>)
    ensures |r| == |files|
    ensures forall k | 0 <= k < |files| :: r[k] == Row(baseFolder, files[k])
  {
    seq(|files|, k requires 0 <= k < |files| => Row(baseFolder, files[k]))
  }

  /** The format tag: "GMAD" as the writer encodes the characters. */
  const MagicTag: bytes := [0x47, 0x4D, 0x41, 0x44]

  /** "Author Name" as `WriteNullTerminatedString` writes it. */
  const AuthorField: bytes := [0x41, 0x75, 0x74, 0x68, 0x6F, 0x72, 0x20, 0x4E, 0x61, 0x6D, 0x65, 0x00]

  /**
   * The header: tag, version, a zero 64-bit id, the timestamp, an empty list of
   * required content, title, description, author and the format revision.
   */
  function Header(title: string, description: string, timestamp: int64): bytes {
    MagicTag
    + [FormatVersion]
    + UInt64Le(0)
    + Int64Le(timestamp)
    + [0]
    + NullTerminated.Write(title)
    + NullTerminated.Write(description)
    + AuthorField
    + Int32Le(FormatRevision)
  }

  /** The tag is `Write("GMAD".ToCharArray())`. */
  lemma MagicTagIsGmad()
    ensures Utf8.EncodeString("GMAD") == MagicTag
  {
    Utf8.EncodeAscii("GMAD");
  }

  /** The version byte is `Write((char)3)` and the empty required-content list is `Write((char)0)`. */
  lemma VersionAndTerminatorChars()
    ensures Utf8.EncodeChar(FormatVersion as int as char) == [FormatVersion]
    ensures Utf8.EncodeChar('\0') == [0]
  {
  }

  /** The author field is `WriteNullTerminatedString("Author Name")`. */
  lemma AuthorFieldIsPlaceholder()
    ensures NullTerminated.Write(AuthorPlaceholder) == AuthorField
  {
    WriteAscii(AuthorPlaceholder, AuthorField);
  }

  /** An ASCII string is written as its code points followed by a zero byte. */
  lemma WriteAscii(s: string, expected: bytes)
    requires Utf8.IsAscii(s)
    requires |expected| == |s| + 1 && expected[|s|] == 0
    requires forall i | 0 <= i < |s| :: expected[i] as int == s[i] as int
    ensures NullTerminated.Write(s) == expected
  {
    Utf8.EncodeAscii(s);
  }

  /** One file-table record: sequence number, path, size and CRC. */
  function Record(number: uint32, row: TableRow): bytes {
    UInt32Le(number) + NullTerminated.Write(row.name) + Int64Le(row.size) + UInt32Le(row.crc)
  }

  /**
   * The file table after `written` records: `fileNum` is a `uint`, so the
   * number of the next record is `written + 1` modulo 2^32.
   */
  function Table(rows: seq<TableRow>, written: nat): bytes
    decreases |rows|
  {
    if |rows| == 0 then []
    else Record((written + 1) % 0x1_0000_0000, rows[0]) + Table(rows[1..], written + 1)
  }

  /** The header is forty bytes plus the UTF-8 encodings of the title and the description. */
  lemma HeaderLength(title: string, description: string, timestamp: int64)
    ensures |Header(title, description, timestamp)| == 40 + |Utf8.EncodeString(title)| + |Utf8.EncodeString(description)|
  {
  }

  /** A record starts with its number and takes sixteen bytes besides its path: number (4), size (8), CRC (4). */
  lemma RecordLength(number: uint32, row: TableRow)
    ensures |Record(number, row)| == 16 + |NullTerminated.Write(row.name)|
    ensures Record(number, row)[..4] == UInt32Le(number)
  {
  }

  /** The bytes the paths of a table take, each written as a null-terminated string. */
  function NamesSize(rows: seq<TableRow>): nat {
    if |rows| == 0 then 0 else |NullTerminated.Write(rows[0].name)| + NamesSize(rows[1..])
  }

  /** The table takes sixteen bytes per record plus its written paths, whatever the numbering. */
  lemma {:induction false} TableLength(rows: seq<TableRow>, written: nat)
    ensures |Table(rows, written)| == 16 * |rows| + NamesSize(rows)
    decreases |rows|
  {
    if |rows| > 0 {
      RecordLength((written + 1) % 0x1_0000_0000, rows[0]);
      TableLength(rows[1..], written + 1);
    }
  }

  /** The extracted contents of `files`, in order; the first member that fails to extract is the error. */
  function Payload(files: seq<Entry>): (r: Result<bytes, string>)
    ensures r.Ok? <==> forall k | 0 <= k < |files| :: files[k].content.Some?
    ensures r.Err? ==> exists k | 0 <= k < |files| :: files[k].fileName == r.error && files[k].content.None?
  {
    if |files| == 0 then Ok([])
    else if files[0].content.None? then Err(files[0].fileName)
    else
      var rest := Payload(files[1..]);
      if rest.Err? then
        assert exists k | 0 <= k < |files[1..]| :: files[1..][k].fileName == rest.error && files[1..][k].content.None?;
        Err(rest.error)
      else
        Ok(files[0].content.value + rest.value)
  }

  /** The bytes `Create` writes before the checksum. */
  function Body(manifest: Manifest, timestamp: int64, rows: seq<TableRow>, payload: bytes): bytes {
    Header(manifest.title, manifest.description, timestamp) + Table(rows, 0) + UInt32Le(0) + payload
  }

  lemma HeaderStartsWithMagic(title: string, description: string, timestamp: int64)
    ensures |Header(title, description, timestamp)| >= 4
    ensures Header(title, description, timestamp)[..4] == MagicTag
  {
    var h := MagicTag;
    KeepsTag(h, [FormatVersion]);
    h := h + [FormatVersion];
    KeepsTag(h, UInt64Le(0));
    h := h + UInt64Le(0);
    KeepsTag(h, Int64Le(timestamp));
    h := h + Int64Le(timestamp);
    KeepsTag(h, [0]);
    h := h + [0];
    KeepsTag(h, NullTerminated.Write(title));
    h := h + NullTerminated.Write(title);
    KeepsTag(h, NullTerminated.Write(description));
    h := h + NullTerminated.Write(description);
    KeepsTag(h, AuthorField);
    h := h + AuthorField;
    KeepsTag(h, Int32Le(FormatRevision));
  }

  /** Appending bytes keeps the first four. */
  lemma KeepsTag(a: bytes, b: bytes)
    requires |a| >= 4 && a[..4] == MagicTag
    ensures |a + b| >= 4 && (a + b)[..4] == MagicTag
  {
    assert (a + b)[..4] == a[..4];
  }

  lemma BodyStartsWithMagic(manifest: Manifest, timestamp: int64, rows: seq<TableRow>, payload: bytes)
    ensures |Body(manifest, timestamp, rows, payload)| >= 4
    ensures Body(manifest, timestamp, rows, payload)[..4] == MagicTag
  {
    var header := Header(manifest.title, manifest.description, timestamp);
    HeaderStartsWithMagic(manifest.title, manifest.description, timestamp);
    KeepsTag(header, Table(rows, 0));
    KeepsTag(header + Table(rows, 0), UInt32Le(0));
    KeepsTag(header + Table(rows, 0) + UInt32Le(0), payload);
  }

  /** Appends the CRC-32 of everything written so far. */
  function Seal(body: bytes): (r: bytes)
    ensures |r| == |body| + 4 && r[..|body|] == body
    ensures r[|body|..] == UInt32Le(Crc32.Checksum(r[..|body|]))
  {
    body + UInt32Le(Crc32.Checksum(body))
  }

  /** The complete package for a manifest, a timestamp, the table rows and the payload. */
  function Package(manifest: Manifest, timestamp: int64, rows: seq<TableRow>, payload: bytes): (r: bytes)
    ensures |r| >= 8 && r[..4] == MagicTag
    ensures r[|r| - 4..] == UInt32Le(Crc32.Checksum(r[..|r| - 4]))
  {
    var body := Body(manifest, timestamp, rows, payload);
    BodyStartsWithMagic(manifest, timestamp, rows, payload);
    var r := Seal(body);
    assert r[..4] == body[..4];
    r
  }

  /**
   * The first part of `GMAD.Create`: finds the manifest, extracts it and parses
   * it. Yields the manifest's path and its metadata.
   */
  function LocateManifest(entries: seq<Entry>, parse: bytes -> Option<Manifest>): (r: Result<(string, Manifest), CreateError>)
    ensures r.Ok? ==> IsManifestPath(r.value.0) || r.value.0 == ""
    ensures r.Ok? && r.value.0 != "" ==> exists i | 0 <= i < |entries| ::
      entries[i].fileName == r.value.0 && forall j | 0 <= j < i :: !IsManifestPath(entries[j].fileName)
    ensures r.Ok? && r.value.0 == "" ==> forall i | 0 <= i < |entries| :: !IsManifestPath(entries[i].fileName)
    ensures r.Ok? ==> exists e | e in entries ::
      e.fileName == r.value.0 && e.content.Some? && parse(e.content.value) == Some(r.value.1)
  {
    var addonFile := FindAddonJson(FileNames(entries));
    FoundManifestInEntries(entries);
    var manifestEntry := Lookup(entries, addonFile);
    if manifestEntry.None? then
      Err(ManifestNotFound)
    else if manifestEntry.value.content.None? then
      Err(MemberReadError(addonFile))
    else
      var manifest := parse(manifestEntry.value.content.value);
      if manifest.None? then Err(ManifestParseError) else Ok((addonFile, manifest.value))
  }

  /**
   * The part of `GMAD.Create` after the manifest is parsed: the package of the
   * manifest and the members selected for packing, or the first selected
   * member that fails to extract. The size of the package is not bounded.
   */
  function Assemble(manifest: Manifest, baseFolder: string, files: seq<Entry>, now: int64)
    : (r: Result<bytes, CreateError>)
    ensures r.Ok? <==> forall k | 0 <= k < |files| :: files[k].content.Some?
    ensures r.Ok? ==> |r.value| >= 8 && r.value[..4] == MagicTag
    ensures r.Ok? ==> r.value[|r.value| - 4..] == UInt32Le(Crc32.Checksum(r.value[..|r.value| - 4]))
    ensures r.Err? ==> r.error.MemberReadError?
    ensures r.Err? ==> exists k | 0 <= k < |files| :: files[k].fileName == r.error.path && files[k].content.None?
  {
    var payload := Payload(files);
    if payload.Err? then
      Err(MemberReadError(payload.error))
    else
      Ok(Package(manifest, now, Rows(baseFolder, files), payload.value))
  }

  /**
   * `GMAD.Create`: locates and parses the manifest, then writes the package for
   * the members inside its root folder. `parse` stands for reading the manifest
   * JSON and building its description, `allowed` for the whitelist, `now` for
   * the current Unix time. The root-folder test is the intended one;
   * `CreateAsWritten` has the test exactly as the file-list query writes it.
   */
  function Create(entries: seq<Entry>, parse: bytes -> Option<Manifest>, allowed: string -> bool, now: int64)
    : (r: Result<bytes, CreateError>)
    ensures r.Ok? ==> |r.value| >= 8 && r.value[..4] == MagicTag
    ensures r.Ok? ==> r.value[|r.value| - 4..] == UInt32Le(Crc32.Checksum(r.value[..|r.value| - 4]))
  {
    var (addonFile, manifest) :- LocateManifest(entries, parse);
    var baseFolder := RootFolder(addonFile);
    Assemble(manifest, baseFolder, FileList(entries, baseFolder, allowed), now)
  }

  /**
   * `GMAD.Create` with the file-list query as written: every member whose path
   * starts with the root folder's name, sibling folders included, is packed.
   */
  function CreateAsWritten(entries: seq<Entry>, parse: bytes -> Option<Manifest>, allowed: string -> bool, now: int64)
    : (r: Result<bytes, CreateError>)
    ensures r.Ok? ==> |r.value| >= 8 && r.value[..4] == MagicTag
    ensures r.Ok? ==> r.value[|r.value| - 4..] == UInt32Le(Crc32.Checksum(r.value[..|r.value| - 4]))
  {
    var (addonFile, manifest) :- LocateManifest(entries, parse);
    var baseFolder := RootFolder(addonFile);
    Assemble(manifest, baseFolder, FileListAsWritten(entries, baseFolder, allowed), now)
  }

  /** Once the manifest is located, `Create` assembles the package of the file list. */
  lemma CreateAssembles(entries: seq<Entry>, parse: bytes -> Option<Manifest>, allowed: string -> bool, now: int64)
    requires LocateManifest(entries, parse).Ok?
    ensures var (addonFile, manifest) := LocateManifest(entries, parse).value;
      Create(entries, parse, allowed, now)
        == Assemble(manifest, RootFolder(addonFile), FileList(entries, RootFolder(addonFile), allowed), now)
  {
  }

  /** Once the manifest is located, `CreateAsWritten` assembles the package of the file list as written. */
  lemma CreateAsWrittenAssembles(entries: seq<Entry>, parse: bytes -> Option<Manifest>, allowed: string -> bool,
                                 now: int64)
    requires LocateManifest(entries, parse).Ok?
    ensures var (addonFile, manifest) := LocateManifest(entries, parse).value;
      CreateAsWritten(entries, parse, allowed, now)
        == Assemble(manifest, RootFolder(addonFile), FileListAsWritten(entries, RootFolder(addonFile), allowed), now)
  {
  }

  /** The member's recorded size is the length of what it extracts to. */
  predicate Consistent(e: Entry) {
    e.content.Some? ==> |e.content.value| == e.uncompressedSize
  }

  /** The extracted contents of members that all extract. */
  function Contents(files: seq<Entry>): (r: seq<bytes>)
    requires forall k | 0 <= k < |files| :: files[k].content.Some?
    ensures |r| == |files|
    ensures forall k | 0 <= k < |files| :: r[k] == files[k].content.value
  {
    seq(|files|, k requires 0 <= k < |files| => files[k].content.value)
  }

  /** When every member extracts, the payload is their contents back to back, in list order. */
  lemma {:induction false} PayloadIsContents(files: seq<Entry>)
    requires forall k | 0 <= k < |files| :: files[k].content.Some?
    ensures Payload(files) == Ok(Concat(Contents(files)))
  {
    if |files| > 0 {
      PayloadIsContents(files[1..]);
      assert Contents(files)[1..] == Contents(files[1..]);
    }
  }

  /** The sum of the members' recorded sizes. */
  function TotalSize(files: seq<Entry>): int {
    if |files| == 0 then 0 else files[0].uncompressedSize as int + TotalSize(files[1..])
  }

  /** When the recorded sizes are the real ones, the payload is as long as their sum. */
  lemma {:induction false} PayloadLength(files: seq<Entry>)
    requires forall k | 0 <= k < |files| :: files[k].content.Some? && Consistent(files[k])
    ensures |Concat(Contents(files))| == TotalSize(files)
  {
    if |files| > 0 {
      PayloadLength(files[1..]);
      assert Contents(files)[1..] == Contents(files[1..]);
    }
  }

  /**
   * The length of an assembled package: the header, sixteen bytes per record
   * plus the paths, the four-byte terminator, the members' recorded sizes and
   * the four-byte checksum.
   */
  lemma AssembleLength(manifest: Manifest, baseFolder: string, files: seq<Entry>, now: int64)
    requires forall k | 0 <= k < |files| :: files[k].content.Some?
    requires forall k | 0 <= k < |files| :: Consistent(files[k])
    ensures |Assemble(manifest, baseFolder, files, now).value|
      == 40 + |Utf8.EncodeString(manifest.title)| + |Utf8.EncodeString(manifest.description)|
         + 16 * |files| + NamesSize(Rows(baseFolder, files)) + 4 + TotalSize(files) + 4
  {
    var rows := Rows(baseFolder, files);
    PayloadIsContents(files);
    PayloadLength(files);
    HeaderLength(manifest.title, manifest.description, now);
    TableLength(rows, 0);
  }

  /**
   * The length of what `Create` writes, when every member's recorded size is
   * the length of what it extracts to.
   */
  lemma CreateLength(entries: seq<Entry>, parse: bytes -> Option<Manifest>, allowed: string -> bool, now: int64,
                     addonFile: string, manifest: Manifest)
    requires LocateManifest(entries, parse) == Ok((addonFile, manifest))
    requires Create(entries, parse, allowed, now).Ok?
    requires forall i | 0 <= i < |entries| :: Consistent(entries[i])
    ensures var files := FileList(entries, RootFolder(addonFile), allowed);
      |Create(entries, parse, allowed, now).value|
        == 40 + |Utf8.EncodeString(manifest.title)| + |Utf8.EncodeString(manifest.description)|
           + 16 * |files| + NamesSize(Rows(RootFolder(addonFile), files)) + 4 + TotalSize(files) + 4
  {
    var files := FileList(entries, RootFolder(addonFile), allowed);
    CreateAssembles(entries, parse, allowed, now);
    forall k | 0 <= k < |files|
      ensures Consistent(files[k])
    {
      assert files[k] in entries;
    }
    AssembleLength(manifest, RootFolder(addonFile), files, now);
  }

  /** Without any manifest (and without a member whose name is empty) there is no package. */
  lemma CreateWithoutManifest(entries: seq<Entry>, parse: bytes -> Option<Manifest>, allowed: string -> bool, now: int64)
    requires forall i | 0 <= i < |entries| :: !IsManifestPath(entries[i].fileName)
    requires forall i | 0 <= i < |entries| :: entries[i].fileName != ""
    ensures Create(entries, parse, allowed, now) == Err(ManifestNotFound)
  {
    var names := FileNames(entries);
    assert forall i | 0 <= i < |names| :: !IsManifestPath(names[i]);
    assert FindAddonJson(names) == "";
  }

  /** With a manifest present the manifest is always found; what can still fail is reading or parsing. */
  lemma CreateFindsManifest(entries: seq<Entry>, parse: bytes -> Option<Manifest>, allowed: string -> bool, now: int64, i: nat)
    requires i < |entries| && IsManifestPath(entries[i].fileName)
    ensures LocateManifest(entries, parse) != Err(ManifestNotFound)
    ensures Create(entries, parse, allowed, now) != Err(ManifestNotFound)
  {
    ManifestEntryFound(entries, i);
    LocateManifestNotFound(entries, parse);
    CreateNotFound(entries, parse, allowed, now);
  }

  lemma ManifestEntryFound(entries: seq<Entry>, i: nat)
    requires i < |entries| && IsManifestPath(entries[i].fileName)
    ensures Lookup(entries, FindAddonJson(FileNames(entries))).Some?
  {
    var names := FileNames(entries);
    var j := NamedIndex(names, i);
    assert entries[j].fileName == FindAddonJson(names);
  }

  /** When some name is a manifest, the name found is one of the names. */
  lemma NamedIndex(names: seq<string>, i: nat) returns (j: nat)
    requires i < |names| && IsManifestPath(names[i])
    ensures j < |names| && names[j] == FindAddonJson(names)
  {
    assert FindAddonJson(names) != "";
    j :| 0 <= j < |names| && names[j] == FindAddonJson(names);
  }

  lemma LocateManifestNotFound(entries: seq<Entry>, parse: bytes -> Option<Manifest>)
    ensures LocateManifest(entries, parse) == Err(ManifestNotFound)
      <==> Lookup(entries, FindAddonJson(FileNames(entries))).None?
  {
  }

  /**
   * The manifest taken is the first member, in enumeration order, that is a
   * manifest, so the root folder is that member's folder.
   */
  lemma LocateManifestFirst(entries: seq<Entry>, parse: bytes -> Option<Manifest>, i: nat)
    requires i < |entries| && IsManifestPath(entries[i].fileName)
    requires forall j | 0 <= j < i :: !IsManifestPath(entries[j].fileName)
    requires LocateManifest(entries, parse).Ok?
    ensures LocateManifest(entries, parse).value.0 == entries[i].fileName
  {
    LocatedName(entries, parse);
    FirstManifestEntry(entries, i);
  }

  /** The located path is the name `FindAddonJson` returns. */
  lemma LocatedName(entries: seq<Entry>, parse: bytes -> Option<Manifest>)
    requires LocateManifest(entries, parse).Ok?
    ensures LocateManifest(entries, parse).value.0 == FindAddonJson(FileNames(entries))
  {
  }

  /** The first member that is a manifest gives the name `FindAddonJson` returns. */
  lemma FirstManifestEntry(entries: seq<Entry>, i: nat)
    requires i < |entries| && IsManifestPath(entries[i].fileName)
    requires forall j | 0 <= j < i :: !IsManifestPath(entries[j].fileName)
    ensures FindAddonJson(FileNames(entries)) == entries[i].fileName
  {
    var names := FileNames(entries);
    assert forall j | 0 <= j < i :: !IsManifestPath(names[j]);
    FirstManifestName(names, i);
  }

  /** The name `FindAddonJson` returns is the first manifest name. */
  lemma FirstManifestName(names: seq<string>, i: nat)
    requires i < |names| && IsManifestPath(names[i])
    requires forall j | 0 <= j < i :: !IsManifestPath(names[j])
    ensures FindAddonJson(names) == names[i]
  {
    assert FindAddonJson(names) != "";
    var k :| 0 <= k < |names| && names[k] == FindAddonJson(names)
      && forall j | 0 <= j < k :: !IsManifestPath(names[j]);
    assert IsManifestPath(names[k]);
    assert k == i;
  }

  /** `FindAddonJson`'s promise, stated over the archive's members rather than their names. */
  lemma FoundManifestInEntries(entries: seq<Entry>)
    ensures var name := FindAddonJson(FileNames(entries));
      && (name != "" ==> exists i | 0 <= i < |entries| ::
        entries[i].fileName == name && forall j | 0 <= j < i :: !IsManifestPath(entries[j].fileName))
      && (name == "" ==> forall i | 0 <= i < |entries| :: !IsManifestPath(entries[i].fileName))
  {
    var names := FileNames(entries);
    var name := FindAddonJson(names);
    if name != "" {
      var i :| 0 <= i < |names| && names[i] == name && forall j | 0 <= j < i :: !IsManifestPath(names[j]);
      assert entries[i].fileName == name;
      assert forall j | 0 <= j < i :: !IsManifestPath(entries[j].fileName) by {
        forall j | 0 <= j < i ensures !IsManifestPath(entries[j].fileName) {
          assert names[j] == entries[j].fileName;
        }
      }
    } else {
      forall i | 0 <= i < |entries| ensures !IsManifestPath(entries[i].fileName) {
        assert names[i] == entries[i].fileName;
      }
    }
  }

  /**
   * Parsing fails exactly when the member looked up under the manifest path
   * exists and extracts, but its contents do not parse.
   */
  lemma LocateManifestParseError(entries: seq<Entry>, parse: bytes -> Option<Manifest>)
    ensures var found := Lookup(entries, FindAddonJson(FileNames(entries)));
      LocateManifest(entries, parse) == Err(ManifestParseError)
      <==> found.Some? && found.value.content.Some? && parse(found.value.content.value).None?
  {
  }

  /** `Create` fails with a parse error exactly when locating the manifest does. */
  lemma CreateParseError(entries: seq<Entry>, parse: bytes -> Option<Manifest>, allowed: string -> bool, now: int64)
    ensures Create(entries, parse, allowed, now) == Err(ManifestParseError)
      <==> LocateManifest(entries, parse) == Err(ManifestParseError)
  {
    if LocateManifest(entries, parse).Ok? {
      CreateAssembles(entries, parse, allowed, now);
    }
  }

  lemma CreateNotFound(entries: seq<Entry>, parse: bytes -> Option<Manifest>, allowed: string -> bool, now: int64)
    ensures Create(entries, parse, allowed, now) == Err(ManifestNotFound)
      <==> LocateManifest(entries, parse) == Err(ManifestNotFound)
  {
  }

  /** A read failure names a member of the archive that fails to extract. */
  lemma CreateMemberReadError(entries: seq<Entry>, parse: bytes -> Option<Manifest>, allowed: string -> bool, now: int64)
    requires Create(entries, parse, allowed, now).Err?
    requires Create(entries, parse, allowed, now).error.MemberReadError?
    ensures exists e | e in entries :: e.fileName == Create(entries, parse, allowed, now).error.path && e.content.None?
  {
    var located := LocateManifest(entries, parse);
    if located.Ok? {
      var files := FileList(entries, RootFolder(located.value.0), allowed);
      CreateAssembles(entries, parse, allowed, now);
      AssembleErrorInEntries(entries, files, located.value.1, RootFolder(located.value.0), now);
    } else {
      LocateManifestReadError(entries, parse);
    }
  }

  /** A member that fails to extract while the package is assembled is a member of the archive. */
  lemma AssembleErrorInEntries(entries: seq<Entry>, files: seq<Entry>, manifest: Manifest, baseFolder: string, now: int64)
    requires forall e | e in files :: e in entries
    requires Assemble(manifest, baseFolder, files, now).Err?
    ensures var path := Assemble(manifest, baseFolder, files, now).error.path;
      exists e | e in entries :: e.fileName == path && e.content.None?
  {
    var path := Assemble(manifest, baseFolder, files, now).error.path;
    var k :| 0 <= k < |files| && files[k].fileName == path && files[k].content.None?;
    assert files[k] in entries;
  }

  lemma LocateManifestReadError(entries: seq<Entry>, parse: bytes -> Option<Manifest>)
    requires LocateManifest(entries, parse).Err? && LocateManifest(entries, parse).error.MemberReadError?
    ensures exists e | e in entries :: e.fileName == LocateManifest(entries, parse).error.path && e.content.None?
  {
    var found := Lookup(entries, FindAddonJson(FileNames(entries)));
    assert found.value in entries;
  }

  /** Formatting a path never introduces a NUL. */
  lemma FormatFilenameNoNul(baseFolder: string, before: string)
    requires '\0' !in before
    ensures '\0' !in FormatFilename(baseFolder, before)
  {
    StrippedHasNoNul(baseFolder, before);
    LowerHasNoNul(TrimStartChar(TrimStartString(before, baseFolder), '/'));
  }

  /** Stripping the root folder and the leading '/' introduces no NUL. */
  lemma StrippedHasNoNul(baseFolder: string, before: string)
    requires '\0' !in before
    ensures '\0' !in TrimStartChar(TrimStartString(before, baseFolder), '/')
  {
    var stripped := TrimStartString(before, baseFolder);
    SuffixHasNoNul(before, stripped);
    SuffixHasNoNul(stripped, TrimStartChar(stripped, '/'));
  }

  /** Lower-casing introduces no NUL. */
  lemma LowerHasNoNul(t: string)
    requires '\0' !in t
    ensures '\0' !in ToLower(t)
  {
    var r := ToLower(t);
    forall i | 0 <= i < |r|
      ensures r[i] != '\0'
    {
      assert r[i] == LowerChar(t[i]);
      assert t[i] in t;
    }
  }

  /** A tail of a string without NUL has no NUL. */
  lemma SuffixHasNoNul(s: string, t: string)
    requires '\0' !in s && |t| <= |s| && t == s[|s| - |t|..]
    ensures '\0' !in t
  {
    forall i | 0 <= i < |t|
      ensures t[i] != '\0'
    {
      assert t[i] == s[|s| - |t| + i];
    }
  }

  /**
   * The root-folder test as written lets a sibling folder through: a member
   * whose path merely begins with the root folder's name is packed, under the
   * part of its path after that name, although it is not inside the folder.
   */
  lemma SiblingFolderLeak(baseFolder: string, rest: string, allowed: string -> bool)
    requires baseFolder != "" && rest != "" && rest[0] != '/'
    requires !StartsWith(rest, baseFolder) && !EndsWith(rest, "/")
    requires allowed(ToLower(rest))
    ensures SelectedAsWritten(baseFolder, allowed, baseFolder + rest)
    ensures !Selected(baseFolder, allowed, baseFolder + rest)
    ensures FormatFilename(baseFolder, baseFolder + rest) == ToLower(rest)
  {
    var name := baseFolder + rest;
    assert name[..|baseFolder|] == baseFolder;
    assert name[|baseFolder|..] == rest;
    assert name[|baseFolder|] == rest[0];
    TrimStartStringOnce(name, baseFolder);
    assert name[|name| - 1..] == rest[|rest| - 1..];
    assert !StartsWith(name, baseFolder + "/") by {
      var slashed := baseFolder + "/";
      assert slashed[|baseFolder|] == '/';
      if |slashed| <= |name| {
        assert name[..|slashed|][|baseFolder|] == rest[0];
      }
    }
  }

  /** The concrete case: with the manifest at "x/addon.json", "xlua/foo.lua" is packed as "lua/foo.lua". */
  lemma SiblingFolderExample(allowed: string -> bool)
    requires allowed(ToLower("lua/foo.lua"))
    ensures SelectedAsWritten("x", allowed, "xlua/foo.lua")
    ensures !Selected("x", allowed, "xlua/foo.lua")
  {
    SiblingExampleShape();
    SiblingFolderLeak("x", "lua/foo.lua", allowed);
  }

  lemma SiblingExampleShape()
    ensures !StartsWith("lua/foo.lua", "x") && !EndsWith("lua/foo.lua", "/")
    ensures "x" + "lua/foo.lua" == "xlua/foo.lua"
  {
    var base, rest := "x", "lua/foo.lua";
    assert rest[..1] == "l";
    assert rest[|rest| - 1..] == "a";
  }

  /** The intended test admits exactly the members inside the root folder. */
  lemma SelectedInsideRoot(baseFolder: string, allowed: string -> bool, name: string)
    ensures Selected(baseFolder, allowed, name) ==> InsideRoot(baseFolder, name)
    ensures Selected(baseFolder, allowed, name) ==> SelectedAsWritten(baseFolder, allowed, name)
  {
    if Selected(baseFolder, allowed, name) {
      InsideRootStartsWith(baseFolder, name);
    }
  }
}

=== FILE: gmad_reader.dfy ===
/**
 * Reading a GMAD package back. `Decode` is the inverse of `Gmad.Create` that
 * the encoder's promises are stated against; it is written for this model
 * (the repository itself only probes the header). `ReadAddonInfo` is the
 * header probe of `Program.GetAddonInfoFromGMAFile`.
 */
module GmadReader {
  import opened Common
  import opened Bytes
  import Crc32
  import NullTerminated
  import opened Gmad
  import opened Text

  datatype HeaderInfo = HeaderInfo(
    steamId: uint64,
    timestamp: int64,
    required: seq<string>,
    title: string,
    description: string,
    author: string,
    revision: int32)

  /** A file-table record as read: its sequence number and its row. */
  datatype TableEntry = TableEntry(number: uint32, row: TableRow)

  /** A packed file: its table record and its contents. */
  datatype FileRecord = FileRecord(number: uint32, row: TableRow, content: bytes)

  datatype Archive = Archive(header: HeaderInfo, files: seq<FileRecord>)

  /** The first `n` bytes of `s` and the rest, if `s` has that many. */
  function Take(s: bytes, n: nat): (r: Option<(bytes, bytes)>)
    ensures r.Some? <==> n <= |s|
    ensures r.Some? ==> r.value.0 + r.value.1 == s && |r.value.0| == n
  {
    if |s| < n then None else Some((s[..n], s[n..]))
  }

  lemma TakeOf(a: bytes, rest: bytes)
    ensures Take(a + rest, |a|) == Some((a, rest))
  {
    assert (a + rest)[..|a|] == a;
    assert (a + rest)[|a|..] == rest;
  }

  /** A list of null-terminated strings ended by an empty one. */
  function ReadStringList(s: bytes): (r: Option<(seq<string>, bytes)>)
    ensures r.Some? ==> |r.value.1| < |s|
    decreases |s|
  {
    var (item, rest) :- NullTerminated.Read(s);
    if item == "" then
      Some(([], rest))
    else
      var (more, tail) :- ReadStringList(rest);
      Some(([item] + more, tail))
  }

  function ReadHeader(s: bytes): (r: Option<(HeaderInfo, bytes)>)
    ensures r.Some? ==> |s| >= 4 && s[..4] == MagicTag
  {
    var (tag, s1) :- Take(s, 4);
    if tag != MagicTag then
      None
    else
      var (version, s2) :- Take(s1, 1);
      if version != [FormatVersion] then
        None
      else
        var (steamId, s3) :- ReadUInt64(s2);
        var (timestamp, s4) :- ReadInt64(s3);
        var (fields, s5) :- ReadHeaderStrings(s4);
        var (required, title, description, author, revision) := fields;
        Some((HeaderInfo(steamId, timestamp, required, title, description, author, revision), s5))
  }

  /** The variable-length part of the header: required content, title, description, author, revision. */
  function ReadHeaderStrings(s: bytes): Option<((seq<string>, string, string, string, int32), bytes)> {
    var (required, s1) :- ReadStringList(s);
    var (strings, s3) :- ReadTitleAndDescription(s1);
    var (author, s4) :- NullTerminated.Read(s3);
    var (revision, s5) :- ReadInt32(s4);
    Some(((required, strings.0, strings.1, author, revision), s5))
  }

  /** The title and the description: two null-terminated strings, neither of which can hold a NUL. */
  function ReadTitleAndDescription(s: bytes): (r: Option<((string, string), bytes)>)
    ensures r.Some? ==> '\0' !in r.value.0.0 && '\0' !in r.value.0.1
  {
    var first := NullTerminated.Read(s);
    if first.None? then
      None
    else
      NullTerminated.WriteRead(s);
      var (title, s1) := first.value;
      var second := NullTerminated.Read(s1);
      if second.None? then
        None
      else
        NullTerminated.WriteRead(s1);
        Some(((title, second.value.0), second.value.1))
  }

  /** File-table records up to the zero record number that ends the table. */
  function ReadTable(s: bytes): (r: Option<(seq<TableEntry>, bytes)>)
    ensures r.Some? ==> |r.value.1| <= |s| - 4
    ensures r.Some? ==> forall k | 0 <= k < |r.value.0| :: r.value.0[k].number != 0
    decreases |s|
  {
    var (number, s1) :- ReadUInt32(s);
    if number == 0 then
      Some(([], s1))
    else
      var (name, s2) :- NullTerminated.Read(s1);
      var (size, s3) :- ReadInt64(s2);
      var (crc, s4) :- ReadUInt32(s3);
      var (more, s5) :- ReadTable(s4);
      Some(([TableEntry(number, TableRow(name, size, crc))] + more, s5))
  }

  /** The contents of the tabled files, back to back, each as long as its recorded size. */
  function ReadContents(table: seq<TableEntry>, s: bytes): (r: Option<(seq<FileRecord>, bytes)>)
    ensures r.Some? ==> |r.value.0| == |table|
    ensures r.Some? ==> forall k | 0 <= k < |table| ::
      && r.value.0[k].number == table[k].number
      && r.value.0[k].row == table[k].row
      && |r.value.0[k].content| == table[k].row.size
  {
    if |table| == 0 then
      Some(([], s))
    else if table[0].row.size < 0 then
      None
    else
      var (content, s1) :- Take(s, table[0].row.size as nat);
      var (more, s2) :- ReadContents(table[1..], s1);
      Some(([FileRecord(table[0].number, table[0].row, content)] + more, s2))
  }

  /**
   * A whole package: the trailing CRC-32 must match everything before it, and
   * header, table and contents must use up exactly those bytes.
   */
  function Decode(s: bytes): (r: Option<Archive>)
    ensures r.Some? ==> |s| >= 8 && s[..4] == MagicTag
    ensures r.Some? ==> s[|s| - 4..] == UInt32Le(Crc32.Checksum(s[..|s| - 4]))
  {
    if |s| < 4 then
      None
    else
      var body := s[..|s| - 4];
      var trailer := s[|s| - 4..];
      if FromLE(trailer) != Crc32.Checksum(body) then
        None
      else
        LEOfFromLE(trailer);
        Pow256Widths();
        var (header, s1) :- ReadHeader(body);
        var (table, s2) :- ReadTable(s1);
        var (files, s3) :- ReadContents(table, s2);
        if s3 != [] then None else Some(Archive(header, files))
  }

  /** Table entries numbered from `written + 1` on. */
  function Numbering(rows: seq<TableRow>, written: nat): (r: seq<TableEntry>)
    requires written + |rows| < 0x1_0000_0000
    ensures |r| == |rows|
    ensures forall k | 0 <= k < |rows| :: r[k] == TableEntry(written + k + 1, rows[k])
  {
    seq(|rows|, k requires 0 <= k < |rows| => TableEntry(written + k + 1, rows[k]))
  }

  /** Table entries paired with their contents. */
  function Attach(table: seq<TableEntry>, contents: seq<bytes>): (r: seq<FileRecord>)
    requires |table| == |contents|
    ensures |r| == |table|
    ensures forall k | 0 <= k < |table| :: r[k] == FileRecord(table[k].number, table[k].row, contents[k])
  {
    seq(|table|, k requires 0 <= k < |table| => FileRecord(table[k].number, table[k].row, contents[k]))
  }

  lemma ReadStringListEmpty(rest: bytes)
    ensures ReadStringList([0] + rest) == Some(([], rest))
  {
    assert NullTerminated.Write("") == [0];
    NullTerminated.ReadWrite("", rest);
  }

  /** The header reads back as written: id 0, the timestamp, no required content, the strings and revision 1. */
  lemma ReadHeaderOf(title: string, description: string, timestamp: int64, rest: bytes)
    requires '\0' !in title && '\0' !in description
    ensures ReadHeader(Header(title, description, timestamp) + rest)
      == Some((HeaderInfo(0, timestamp, [], title, description, AuthorPlaceholder, FormatRevision), rest))
  {
    var strings := HeaderStrings(title, description) + rest;
    var s4 := Int64Le(timestamp) + strings;
    var s3 := UInt64Le(0) + s4;
    var s2 := [FormatVersion] + s3;
    HeaderSplit(title, description, timestamp, rest);
    TakeOf(MagicTag, s2);
    TakeOf([FormatVersion], s3);
    ReadUInt64Of(0, s4);
    ReadInt64Of(timestamp, strings);
    ReadHeaderStringsOf(title, description, rest);
  }

  /** The header's strings and revision, as `Header` writes them after the timestamp. */
  function HeaderStrings(title: string, description: string): bytes {
    [0] + NullTerminated.Write(title) + NullTerminated.Write(description) + AuthorField + Int32Le(FormatRevision)
  }

  lemma HeaderSplit(title: string, description: string, timestamp: int64, rest: bytes)
    ensures Header(title, description, timestamp) + rest
      == MagicTag + ([FormatVersion] + (UInt64Le(0) + (Int64Le(timestamp) + (HeaderStrings(title, description) + rest))))
  {
    HeaderRegroup(MagicTag, [FormatVersion], UInt64Le(0), Int64Le(timestamp), [0], NullTerminated.Write(title),
      NullTerminated.Write(description), AuthorField, Int32Le(FormatRevision), rest);
  }

  lemma HeaderRegroup(m: bytes, v: bytes, u: bytes, t: bytes, z: bytes, wt: bytes, wd: bytes, a: bytes, r: bytes, rest: bytes)
    ensures m + v + u + t + z + wt + wd + a + r + rest == m + (v + (u + (t + (z + wt + wd + a + r + rest))))
  {
    var strings := z + wt + wd + a + r;
    assert m + v + u + t + z + wt + wd + a + r == m + v + u + t + strings;
  }

  lemma HeaderStringsSplit(title: string, description: string, rest: bytes)
    ensures HeaderStrings(title, description) + rest
      == [0] + (NullTerminated.Write(title) + (NullTerminated.Write(description)
         + (AuthorField + (Int32Le(FormatRevision) + rest))))
  {
    Associate6([0], NullTerminated.Write(title), NullTerminated.Write(description), AuthorField,
      Int32Le(FormatRevision), rest);
  }

  lemma ReadHeaderStringsOf(title: string, description: string, rest: bytes)
    requires '\0' !in title && '\0' !in description
    ensures ReadHeaderStrings(HeaderStrings(title, description) + rest)
      == Some((([], title, description, AuthorPlaceholder, FormatRevision), rest))
  {
    var s4 := Int32Le(FormatRevision) + rest;
    var s3 := AuthorField + s4;
    var s2 := NullTerminated.Write(description) + s3;
    var s1 := NullTerminated.Write(title) + s2;
    HeaderStringsSplit(title, description, rest);
    ReadStringListEmpty(s1);
    ReadTitleAndDescriptionOf(title, description, s3);
    ReadAuthorField(s4);
    ReadInt32Of(FormatRevision, rest);
  }

  /** A written title and description read back as written, with what follows them. */
  lemma ReadTitleAndDescriptionOf(title: string, description: string, rest: bytes)
    requires '\0' !in title && '\0' !in description
    ensures ReadTitleAndDescription(NullTerminated.Write(title) + (NullTerminated.Write(description) + rest))
      == Some(((title, description), rest))
  {
    NullTerminated.ReadWrite(title, NullTerminated.Write(description) + rest);
    NullTerminated.ReadWrite(description, rest);
  }

  lemma ReadAuthorField(rest: bytes)
    ensures NullTerminated.Read(AuthorField + rest) == Some((AuthorPlaceholder, rest))
  {
    AuthorFieldIsPlaceholder();
    PlaceholderHasNoNul();
    ReadWritten(AuthorField, AuthorPlaceholder, rest);
  }

  lemma PlaceholderHasNoNul()
    ensures '\0' !in AuthorPlaceholder
  {
  }

  lemma ReadWritten(field: bytes, text: string, rest: bytes)
    requires NullTerminated.Write(text) == field && '\0' !in text
    ensures NullTerminated.Read(field + rest) == Some((text, rest))
  {
    NullTerminated.ReadWrite(text, rest);
  }

  /**
   * The file table reads back as written, numbered from `written + 1`, provided
   * no number wraps round to the terminating zero and no path holds a NUL.
   */
  lemma {:induction false} ReadTableOf(rows: seq<TableRow>, written: nat, rest: bytes)
    requires written + |rows| < 0x1_0000_0000
    requires forall k | 0 <= k < |rows| :: '\0' !in rows[k].name
    ensures ReadTable(Table(rows, written) + (UInt32Le(0) + rest)) == Some((Numbering(rows, written), rest))
    decreases |rows|
  {
    if |rows| == 0 {
      assert Table(rows, written) + (UInt32Le(0) + rest) == UInt32Le(0) + rest;
      ReadEmptyTable(rest);
    } else {
      var tail := Table(rows[1..], written + 1) + (UInt32Le(0) + rest);
      TableCons(rows, written, UInt32Le(0) + rest);
      ReadTableOf(rows[1..], written + 1, rest);
      ReadRecordOf(written + 1, rows[0], tail, Numbering(rows[1..], written + 1), rest);
      NumberingCons(rows, written);
    }
  }

  lemma TableCons(rows: seq<TableRow>, written: nat, after: bytes)
    requires |rows| > 0 && written + 1 < 0x1_0000_0000
    ensures Table(rows, written) + after == Record(written + 1, rows[0]) + (Table(rows[1..], written + 1) + after)
  {
    TableUnfold(rows, written);
    Associate3(Record(written + 1, rows[0]), Table(rows[1..], written + 1), after);
  }

  lemma TableUnfold(rows: seq<TableRow>, written: nat)
    requires |rows| > 0 && written + 1 < 0x1_0000_0000
    ensures Table(rows, written) == Record(written + 1, rows[0]) + Table(rows[1..], written + 1)
  {
    assert (written + 1) % 0x1_0000_0000 == written + 1;
  }

  lemma ReadEmptyTable(rest: bytes)
    ensures ReadTable(UInt32Le(0) + rest) == Some(([], rest))
  {
    ReadUInt32Of(0, rest);
  }

  lemma NumberingCons(rows: seq<TableRow>, written: nat)
    requires |rows| > 0 && written + |rows| < 0x1_0000_0000
    ensures Numbering(rows, written) == [TableEntry(written + 1, rows[0])] + Numbering(rows[1..], written + 1)
  {
  }

  /** One record with a non-zero number is read, and the table goes on after it. */
  lemma ReadRecordOf(number: uint32, row: TableRow, tail: bytes, more: seq<TableEntry>, after: bytes)
    requires number != 0 && '\0' !in row.name
    requires ReadTable(tail) == Some((more, after))
    ensures ReadTable(Record(number, row) + tail) == Some(([TableEntry(number, row)] + more, after))
  {
    var s4 := UInt32Le(row.crc) + tail;
    var s3 := Int64Le(row.size) + s4;
    var s2 := NullTerminated.Write(row.name) + s3;
    RecordNumberOf(number, row, tail);
    NullTerminated.ReadWrite(row.name, s3);
    ReadInt64Of(row.size, s4);
    ReadUInt32Of(row.crc, tail);
  }

  lemma RecordNumberOf(number: uint32, row: TableRow, tail: bytes)
    ensures ReadUInt32(Record(number, row) + tail)
      == Some((number, NullTerminated.Write(row.name) + (Int64Le(row.size) + (UInt32Le(row.crc) + tail))))
  {
    var s2 := NullTerminated.Write(row.name) + (Int64Le(row.size) + (UInt32Le(row.crc) + tail));
    Associate5(UInt32Le(number), NullTerminated.Write(row.name), Int64Le(row.size), UInt32Le(row.crc), tail);
    ReadUInt32Of(number, s2);
  }

  /** Contents written back to back read back one per table entry when the recorded sizes are the real ones. */
  lemma {:induction false} ReadContentsOf(table: seq<TableEntry>, contents: seq<bytes>, rest: bytes)
    requires |table| == |contents|
    requires forall k | 0 <= k < |table| :: table[k].row.size == |contents[k]|
    ensures ReadContents(table, Concat(contents) + rest) == Some((Attach(table, contents), rest))
  {
    if |table| > 0 {
      var s := Concat(contents[1..]) + rest;
      assert Concat(contents) + rest == contents[0] + s;
      TakeOf(contents[0], s);
      ReadContentsOf(table[1..], contents[1..], rest);
      assert Attach(table, contents)
        == [FileRecord(table[0].number, table[0].row, contents[0])] + Attach(table[1..], contents[1..]);
    } else {
      assert Concat(contents) + rest == rest;
    }
  }

  /** The header `Create` writes for a manifest at a given time. */
  function WrittenHeader(manifest: Manifest, timestamp: int64): HeaderInfo {
    HeaderInfo(0, timestamp, [], manifest.title, manifest.description, AuthorPlaceholder, FormatRevision)
  }

  /**
   * A package decodes to what it was built from: the header, then one record
   * per row, numbered from 1 in row order, with its contents.
   */
  lemma DecodePackage(manifest: Manifest, timestamp: int64, rows: seq<TableRow>, contents: seq<bytes>)
    requires '\0' !in manifest.title && '\0' !in manifest.description
    requires |rows| < 0x1_0000_0000
    requires forall k | 0 <= k < |rows| :: '\0' !in rows[k].name
    requires |contents| == |rows| && forall k | 0 <= k < |rows| :: rows[k].size == |contents[k]|
    ensures Decode(Package(manifest, timestamp, rows, Concat(contents)))
      == Some(Archive(WrittenHeader(manifest, timestamp), Attach(Numbering(rows, 0), contents)))
  {
    var payload := Concat(contents);
    var body := Body(manifest, timestamp, rows, payload);
    var afterHeader := Table(rows, 0) + (UInt32Le(0) + payload);
    PackageSplit(manifest, timestamp, rows, payload);
    ReadHeaderOf(manifest.title, manifest.description, timestamp, afterHeader);
    ReadTableOf(rows, 0, payload + []);
    assert payload + [] == payload;
    ReadContentsOf(Numbering(rows, 0), contents, []);
    DecodeBody(Package(manifest, timestamp, rows, payload), body);
  }

  lemma PackageSplit(manifest: Manifest, timestamp: int64, rows: seq<TableRow>, payload: bytes)
    ensures Package(manifest, timestamp, rows, payload)
      == Body(manifest, timestamp, rows, payload) + UInt32Le(Crc32.Checksum(Body(manifest, timestamp, rows, payload)))
    ensures Body(manifest, timestamp, rows, payload)
      == Header(manifest.title, manifest.description, timestamp) + (Table(rows, 0) + (UInt32Le(0) + payload))
  {
    Associate4(Header(manifest.title, manifest.description, timestamp), Table(rows, 0), UInt32Le(0), payload);
  }

  /** Decoding a sealed body: the checksum matches and the body is parsed. */
  lemma DecodeBody(s: bytes, body: bytes)
    requires s == body + UInt32Le(Crc32.Checksum(body))
    ensures Decode(s) == (
      var (header, s1) :- ReadHeader(body);
      var (table, s2) :- ReadTable(s1);
      var (files, s3) :- ReadContents(table, s2);
      if s3 != [] then None else Some(Archive(header, files)))
  {
    var crc := Crc32.Checksum(body);
    assert s[..|s| - 4] == body;
    assert s[|s| - 4..] == UInt32Le(crc);
    Pow256Widths();
    FromLEOfLE(crc, 4);
  }

  /** Members as the model of a zip archive expects them: recorded sizes are real and paths hold no NUL. */
  predicate WellFormed(entries: seq<Entry>) {
    forall i | 0 <= i < |entries| :: Consistent(entries[i]) && '\0' !in entries[i].fileName
  }

  /** Members picked from a well-formed archive are well formed. */
  lemma WellFormedPick(entries: seq<Entry>, files: seq<Entry>)
    requires WellFormed(entries) && forall e | e in files :: e in entries
    ensures WellFormed(files)
  {
    forall k | 0 <= k < |files|
      ensures Consistent(files[k]) && '\0' !in files[k].fileName
    {
      assert files[k] in files;
      var i :| 0 <= i < |entries| && entries[i] == files[k];
    }
  }

  /** When every selected member extracts, the assembly succeeds with the package of the manifest, the rows and the contents. */
  lemma AssembleIsPackage(manifest: Manifest, baseFolder: string, files: seq<Entry>, now: int64)
    requires forall k | 0 <= k < |files| :: files[k].content.Some?
    ensures Assemble(manifest, baseFolder, files, now).Ok?
    ensures Assemble(manifest, baseFolder, files, now).value
      == Package(manifest, now, Rows(baseFolder, files), Concat(Contents(files)))
  {
    PayloadIsContents(files);
  }

  /**
   * An assembled package decodes to the manifest's header and, in list order,
   * one record per selected member numbered from 1, holding the member's
   * formatted path, size, CRC and contents.
   */
  lemma AssembleRoundTrip(manifest: Manifest, baseFolder: string, files: seq<Entry>, now: int64)
    requires forall k | 0 <= k < |files| :: files[k].content.Some?
    requires WellFormed(files) && |files| < 0x1_0000_0000
    requires '\0' !in manifest.title && '\0' !in manifest.description
    ensures var archive := Decode(Assemble(manifest, baseFolder, files, now).value);
      && archive.Some?
      && archive.value.header == WrittenHeader(manifest, now)
      && |archive.value.files| == |files|
      && forall k | 0 <= k < |files| ::
        && archive.value.files[k].number == k + 1
        && archive.value.files[k].row == Row(baseFolder, files[k])
        && files[k].content == Some(archive.value.files[k].content)
  {
    AssembleIsPackage(manifest, baseFolder, files, now);
    RowsReadable(baseFolder, files);
    DecodePackage(manifest, now, Rows(baseFolder, files), Contents(files));
    AssembledRecords(baseFolder, files);
  }

  /** The rows of well-formed members hold no NUL and record the real sizes. */
  lemma RowsReadable(baseFolder: string, files: seq<Entry>)
    requires forall k | 0 <= k < |files| :: files[k].content.Some?
    requires WellFormed(files)
    ensures forall k | 0 <= k < |files| ::
      '\0' !in Rows(baseFolder, files)[k].name && Rows(baseFolder, files)[k].size == |Contents(files)[k]|
  {
    forall k | 0 <= k < |files|
      ensures '\0' !in Rows(baseFolder, files)[k].name
    {
      FormatFilenameNoNul(baseFolder, files[k].fileName);
    }
  }

  /** The records decoded from the rows and contents of the members are the members, numbered from 1. */
  lemma AssembledRecords(baseFolder: string, files: seq<Entry>)
    requires forall k | 0 <= k < |files| :: files[k].content.Some?
    requires |files| < 0x1_0000_0000
    ensures var records := Attach(Numbering(Rows(baseFolder, files), 0), Contents(files));
      && |records| == |files|
      && forall k | 0 <= k < |files| ::
        && records[k].number == k + 1
        && records[k].row == Row(baseFolder, files[k])
        && files[k].content == Some(records[k].content)
  {
  }

  /**
   * What `Create` writes decodes to the manifest's header and, in file-list
   * order, one record per packed member numbered from 1, holding the member's
   * formatted path, size, CRC and contents.
   */
  lemma CreateRoundTrip(entries: seq<Entry>, parse: bytes -> Option<Manifest>, allowed: string -> bool, now: int64,
                        addonFile: string, manifest: Manifest)
    requires LocateManifest(entries, parse) == Ok((addonFile, manifest))
    requires Create(entries, parse, allowed, now).Ok?
    requires WellFormed(entries) && |entries| < 0x1_0000_0000
    requires '\0' !in manifest.title && '\0' !in manifest.description
    ensures var files := FileList(entries, RootFolder(addonFile), allowed);
      var archive := Decode(Create(entries, parse, allowed, now).value);
      && archive.Some?
      && archive.value.header == WrittenHeader(manifest, now)
      && |archive.value.files| == |files|
      && forall k | 0 <= k < |files| ::
        && archive.value.files[k].number == k + 1
        && archive.value.files[k].row == Row(RootFolder(addonFile), files[k])
        && files[k].content == Some(archive.value.files[k].content)
  {
    var baseFolder := RootFolder(addonFile);
    var files := FileList(entries, baseFolder, allowed);
    CreateAssembles(entries, parse, allowed, now);
    WellFormedPick(entries, files);
    AssembleRoundTrip(manifest, baseFolder, files, now);
  }

  /**
   * The same round trip for the file-list query as written: what
   * `CreateAsWritten` writes decodes to one record per member the query
   * selects, sibling folders included.
   */
  lemma CreateAsWrittenRoundTrip(entries: seq<Entry>, parse: bytes -> Option<Manifest>, allowed: string -> bool,
                                 now: int64, addonFile: string, manifest: Manifest)
    requires LocateManifest(entries, parse) == Ok((addonFile, manifest))
    requires CreateAsWritten(entries, parse, allowed, now).Ok?
    requires WellFormed(entries) && |entries| < 0x1_0000_0000
    requires '\0' !in manifest.title && '\0' !in manifest.description
    ensures var files := FileListAsWritten(entries, RootFolder(addonFile), allowed);
      var archive := Decode(CreateAsWritten(entries, parse, allowed, now).value);
      && archive.Some?
      && archive.value.header == WrittenHeader(manifest, now)
      && |archive.value.files| == |files|
      && forall k | 0 <= k < |files| ::
        && archive.value.files[k].number == k + 1
        && archive.value.files[k].row == Row(RootFolder(addonFile), files[k])
        && files[k].content == Some(archive.value.files[k].content)
  {
    var baseFolder := RootFolder(addonFile);
    var files := FileListAsWritten(entries, baseFolder, allowed);
    CreateAsWrittenAssembles(entries, parse, allowed, now);
    WellFormedPick(entries, files);
    AssembleRoundTrip(manifest, baseFolder, files, now);
  }

  /**
   * A packed member's record sits at the position given by the number of packed
   * members before it in the archive, and carries that position plus one as its number.
   */
  lemma CreatePlacesEntry(entries: seq<Entry>, parse: bytes -> Option<Manifest>, allowed: string -> bool, now: int64,
                          addonFile: string, manifest: Manifest, i: nat)
    requires LocateManifest(entries, parse) == Ok((addonFile, manifest))
    requires Create(entries, parse, allowed, now).Ok?
    requires WellFormed(entries) && |entries| < 0x1_0000_0000
    requires '\0' !in manifest.title && '\0' !in manifest.description
    requires i < |entries| && Selected(RootFolder(addonFile), allowed, entries[i].fileName)
    ensures var j := |FileList(entries[..i], RootFolder(addonFile), allowed)|;
      var archive := Decode(Create(entries, parse, allowed, now).value);
      && archive.Some?
      && j < |archive.value.files|
      && archive.value.files[j].number == j + 1
      && archive.value.files[j].row == Row(RootFolder(addonFile), entries[i])
      && entries[i].content == Some(archive.value.files[j].content)
  {
    var baseFolder := RootFolder(addonFile);
    CreateRoundTrip(entries, parse, allowed, now, addonFile, manifest);
    var archive := Decode(Create(entries, parse, allowed, now).value).value;
    RecordOfEntry(entries, Keep(baseFolder, allowed), baseFolder, archive.files, i);
  }

  /** The same placement for the file-list query as written, for every member it selects. */
  lemma CreateAsWrittenPlacesEntry(entries: seq<Entry>, parse: bytes -> Option<Manifest>, allowed: string -> bool,
                                   now: int64, addonFile: string, manifest: Manifest, i: nat)
    requires LocateManifest(entries, parse) == Ok((addonFile, manifest))
    requires CreateAsWritten(entries, parse, allowed, now).Ok?
    requires WellFormed(entries) && |entries| < 0x1_0000_0000
    requires '\0' !in manifest.title && '\0' !in manifest.description
    requires i < |entries| && SelectedAsWritten(RootFolder(addonFile), allowed, entries[i].fileName)
    ensures var j := |FileListAsWritten(entries[..i], RootFolder(addonFile), allowed)|;
      var archive := Decode(CreateAsWritten(entries, parse, allowed, now).value);
      && archive.Some?
      && j < |archive.value.files|
      && archive.value.files[j].number == j + 1
      && archive.value.files[j].row == Row(RootFolder(addonFile), entries[i])
      && entries[i].content == Some(archive.value.files[j].content)
  {
    var baseFolder := RootFolder(addonFile);
    CreateAsWrittenRoundTrip(entries, parse, allowed, now, addonFile, manifest);
    var archive := Decode(CreateAsWritten(entries, parse, allowed, now).value).value;
    RecordOfEntry(entries, KeepAsWritten(baseFolder, allowed), baseFolder, archive.files, i);
  }

  /** Records that match a filtered list one for one hold each kept member at its list position. */
  lemma RecordOfEntry(entries: seq<Entry>, keep: string -> bool, baseFolder: string, records: seq<FileRecord>, i: nat)
    requires |records| == |Filter(entries, keep)|
    requires forall k | 0 <= k < |records| ::
      && records[k].number == k + 1
      && records[k].row == Row(baseFolder, Filter(entries, keep)[k])
      && Filter(entries, keep)[k].content == Some(records[k].content)
    requires i < |entries| && keep(entries[i].fileName)
    ensures var j := |Filter(entries[..i], keep)|;
      && j < |records|
      && records[j].number == j + 1
      && records[j].row == Row(baseFolder, entries[i])
      && entries[i].content == Some(records[j].content)
  {
    FilterIndex(entries, keep, i);
  }

  /**
   * Once the 32-bit record number wraps round to zero, the reader takes that
   * record's number for the terminator: the table reads back empty from there.
   */
  lemma WrappedTableReadsEmpty(rows: seq<TableRow>, written: nat, rest: bytes)
    requires |rows| > 0 && (written + 1) % 0x1_0000_0000 == 0
    ensures ReadTable(Table(rows, written) + rest).Some?
    ensures ReadTable(Table(rows, written) + rest).value.0 == []
  {
    assert (written + 1) % 0x1_0000_0000 == 0;
    var row := rows[0];
    var later := Table(rows[1..], written + 1);
    var fields := NullTerminated.Write(row.name) + (Int64Le(row.size) + UInt32Le(row.crc));
    assert Table(rows, written) == Record(0, row) + later;
    Associate4(UInt32Le(0), NullTerminated.Write(row.name), Int64Le(row.size), UInt32Le(row.crc));
    assert Record(0, row) == UInt32Le(0) + fields;
    Associate4(UInt32Le(0), fields, later, rest);
    ReadUInt32Of(0, fields + (later + rest));
  }

  /** Where the title starts: tag (4), version (1), id (8), timestamp (8), empty required-content list (1). */
  const TitleOffset: nat := 22

  /**
   * `GetAddonInfoFromGMAFile`: skips the fixed part of the header and reads the
   * title and the description as null-terminated strings. The description is
   * returned as read; turning it into `DescriptionJSON` is not modelled.
   */
  function ReadAddonInfo(s: bytes): (r: Option<(string, string)>)
    ensures r.Some? ==> |s| > TitleOffset
    ensures r.Some? ==> '\0' !in r.value.0 && '\0' !in r.value.1
  {
    if |s| < TitleOffset then
      None
    else
      var (strings, _) :- ReadTitleAndDescription(s[TitleOffset..]);
      Some(strings)
  }

  /** The bytes after the title offset of a header are its title, its description, and the rest. */
  lemma HeaderAtTitle(title: string, description: string, timestamp: int64, rest: bytes)
    ensures var s := Header(title, description, timestamp) + rest;
      |s| >= TitleOffset
      && s[TitleOffset..] == NullTerminated.Write(title) + (NullTerminated.Write(description)
         + (AuthorField + (Int32Le(FormatRevision) + rest)))
  {
    HeaderSplit(title, description, timestamp, rest);
    HeaderStringsSplit(title, description, rest);
    DropFixed(MagicTag, [FormatVersion], UInt64Le(0), Int64Le(timestamp), [0],
      NullTerminated.Write(title) + (NullTerminated.Write(description) + (AuthorField + (Int32Le(FormatRevision) + rest))));
  }

  lemma DropFixed(m: bytes, v: bytes, u: bytes, t: bytes, z: bytes, x: bytes)
    requires |m| == 4 && |v| == 1 && |u| == 8 && |t| == 8 && |z| == 1
    ensures (m + (v + (u + (t + (z + x)))))[TitleOffset..] == x
  {
  }

  /** The header probe reads back the title and description of any header followed by anything. */
  lemma AddonInfoOfHeader(title: string, description: string, timestamp: int64, rest: bytes)
    requires '\0' !in title && '\0' !in description
    ensures ReadAddonInfo(Header(title, description, timestamp) + rest) == Some((title, description))
  {
    HeaderAtTitle(title, description, timestamp, rest);
    ReadTitleAndDescriptionOf(title, description, AuthorField + (Int32Le(FormatRevision) + rest));
  }

  /** The header probe reads back the title and description `Create` wrote. */
  lemma AddonInfoOfPackage(manifest: Manifest, timestamp: int64, rows: seq<TableRow>, payload: bytes)
    requires '\0' !in manifest.title && '\0' !in manifest.description
    ensures ReadAddonInfo(Package(manifest, timestamp, rows, payload)) == Some((manifest.title, manifest.description))
  {
    var header := Header(manifest.title, manifest.description, timestamp);
    var body := Body(manifest, timestamp, rows, payload);
    var tables := Table(rows, 0) + (UInt32Le(0) + payload);
    var crc := UInt32Le(Crc32.Checksum(body));
    PackageSplit(manifest, timestamp, rows, payload);
    Associate3(header, tables, crc);
    AddonInfoOfHeader(manifest.title, manifest.description, timestamp, tables + crc);
  }

  /**
   * The probe agrees with the full header reader on every header with no
   * required-content entries, which is the only kind `Create` writes: the
   * fixed offset is exactly where the full reader finds the title.
   */
  lemma AddonInfoAgreesWithHeader(s: bytes)
    requires ReadHeader(s).Some? && ReadHeader(s).value.0.required == []
    ensures ReadAddonInfo(s) == Some((ReadHeader(s).value.0.title, ReadHeader(s).value.0.description))
  {
    var t := s[21..];
    HeaderStringsAtOffset(s);
    var h := ReadHeader(s).value.0;
    var fields := ReadHeaderStrings(t).value.0;
    assert h.title == fields.1 && h.description == fields.2 && fields.0 == [];
    HeaderStringsParts(t);
    EmptyStringList(t);
    var after := ReadStringList(t).value.1;
    assert after == s[TitleOffset..];
    var pair := ReadTitleAndDescription(after);
    assert pair.Some? && pair.value.0 == (fields.1, fields.2);
    assert ReadAddonInfo(s) == Some(pair.value.0);
  }

  /** The full header reader finds the variable-length fields right after the timestamp. */
  lemma HeaderStringsAtOffset(s: bytes)
    requires ReadHeader(s).Some?
    ensures |s| >= 21 && ReadHeaderStrings(s[21..]).Some?
    ensures var (required, title, description, _, _) := ReadHeaderStrings(s[21..]).value.0;
      var h := ReadHeader(s).value.0;
      h.required == required && h.title == title && h.description == description
  {
    assert s[4..][1..] == s[5..];
    assert s[5..][8..] == s[13..];
    assert s[13..][8..] == s[21..];
  }

  /** The title and the description are the two strings after the required-content list. */
  lemma HeaderStringsParts(t: bytes)
    requires ReadHeaderStrings(t).Some?
    ensures ReadStringList(t).Some? && ReadStringList(t).value.0 == ReadHeaderStrings(t).value.0.0
    ensures ReadTitleAndDescription(ReadStringList(t).value.1).Some?
    ensures ReadTitleAndDescription(ReadStringList(t).value.1).value.0
      == (ReadHeaderStrings(t).value.0.1, ReadHeaderStrings(t).value.0.2)
  {
    var list := ReadStringList(t);
    assert list.Some?;
    var strings := ReadTitleAndDescription(list.value.1);
    assert strings.Some?;
  }

  /** An empty required-content list is a single zero byte. */
  lemma EmptyStringList(t: bytes)
    requires ReadStringList(t).Some? && ReadStringList(t).value.0 == []
    ensures |t| >= 1 && t[0] == 0 && ReadStringList(t).value.1 == t[1..]
  {
    assert NullTerminated.Read(t).Some? && NullTerminated.Read(t).value.0 == "";
    NullTerminated.ReadEmpty(t);
  }

  /** `GetAddonInfoFromGMAFile` on what `Create` wrote yields the manifest's title and description. */
  lemma AddonInfoOfCreate(entries: seq<Entry>, parse: bytes -> Option<Manifest>, allowed: string -> bool, now: int64,
                          addonFile: string, manifest: Manifest)
    requires LocateManifest(entries, parse) == Ok((addonFile, manifest))
    requires Create(entries, parse, allowed, now).Ok?
    requires '\0' !in manifest.title && '\0' !in manifest.description
    ensures ReadAddonInfo(Create(entries, parse, allowed, now).value) == Some((manifest.title, manifest.description))
  {
    var baseFolder := RootFolder(addonFile);
    var files := FileList(entries, baseFolder, allowed);
    CreateAssembles(entries, parse, allowed, now);
    AssembleIsPackage(manifest, baseFolder, files, now);
    AddonInfoOfPackage(manifest, now, Rows(baseFolder, files), Concat(Contents(files)));
  }
}

=== FILE: program.dfy ===
/**
 * The command-line front end of `gmpublish`: looking up `-flag value` pairs
 * and turning the arguments and the environment into either an exit code or a
 * resolved command. The process environment and the file system enter as the
 * parameters `env` and `fileExists`; what happens after a command has been
 * resolved (connecting to Steam) is not part of this model.
 */
module Program {
  import opened Common

  /** Exit code for a missing credential, a missing required argument or an unknown verb. */
  const MissingArgument: int := 8

  /** Exit code for an `-addon` or `-icon` path that names no existing file. */
  const FileNotFound: int := 9

  const UserVariable: string := "GMPUBLISH_USER"
  const PassVariable: string := "GMPUBLISH_PASS"

  /** True when `i` is a position `FindArgumentValue` inspects and `args[i]` is `argName`. */
  predicate FlagAt(argName: string, args: seq<string>, i: int) {
    1 <= i < |args| - 1 && args[i] == argName
  }

  /**
   * `FindArgumentValue(argName, args)`: the argument after the first occurrence
   * of `argName` among `args[1..|args| - 1]`. The verb `args[0]` is never a
   * flag, and a flag in last position has no value; `None` is the source's `null`.
   */
  function FindArgumentValue(argName: string, args: seq<string>): (r: Option<string>)
    ensures r.None? <==> forall i | 1 <= i < |args| - 1 :: args[i] != argName
    ensures r.Some? ==>
      exists i :: FlagAt(argName, args, i) && r.value == args[i + 1] && forall j | 1 <= j < i :: args[j] != argName
  {
    FindFrom(argName, args, 1)
  }

  /** The lookup from position `i` on. */
  function FindFrom(argName: string, args: seq<string>, i: nat): (r: Option<string>)
    requires 1 <= i
    ensures r.None? <==> forall k | i <= k < |args| - 1 :: args[k] != argName
    ensures r.Some? ==>
      exists k :: i <= k && FlagAt(argName, args, k) && r.value == args[k + 1] && forall j | i <= j < k :: args[j] != argName
    decreases |args| - i
  {
    if i >= |args| - 1 then None
    else if args[i] == argName then
      assert FlagAt(argName, args, i);
      Some(args[i + 1])
    else FindFrom(argName, args, i + 1)
  }

  /** The lookup as the source's `for` loop writes it, returning at the first match. */
  method FindArgumentValueLoop(argName: string, args: seq<string>) returns (r: Option<string>)
    ensures r == FindArgumentValue(argName, args)
  {
    var i := 1;
    while i < |args| - 1
      invariant 1 <= i
      invariant FindFrom(argName, args, i) == FindArgumentValue(argName, args)
      decreases |args| - i
    {
      if args[i] == argName {
        return Some(args[i + 1]);
      }
      i := i + 1;
    }
    return None;
  }

  /** The value that follows the first occurrence of the flag is the one found. */
  lemma FirstFlagWins(argName: string, args: seq<string>, i: nat)
    requires FlagAt(argName, args, i)
    requires forall j | 1 <= j < i :: args[j] != argName
    ensures FindArgumentValue(argName, args) == Some(args[i + 1])
  {
    var r := FindArgumentValue(argName, args);
    var k :| FlagAt(argName, args, k) && r.value == args[k + 1] && forall j | 1 <= j < k :: args[j] != argName;
    assert k == i;
  }

  /** The verb is never taken for a flag, and a flag that only appears last has no value. */
  lemma VerbAndLastAreNotFlags(argName: string, verb: string, middle: seq<string>)
    requires argName !in middle
    ensures FindArgumentValue(argName, [verb] + middle + [argName]) == None
  {
    var args := [verb] + middle + [argName];
    forall i | 1 <= i < |args| - 1
      ensures args[i] != argName
    {
      assert args[i] == middle[i - 1];
    }
  }

  /**
   * Arguments are not consumed in pairs: a value that happens to equal another
   * flag's name also counts as that flag.
   */
  lemma ValueMayBeFlag(a: string, b: string, verb: string, v: string)
    requires a != b
    ensures FindArgumentValue(a, [verb, a, b, v]) == Some(b)
    ensures FindArgumentValue(b, [verb, a, b, v]) == Some(v)
  {
    FirstFlagWins(a, [verb, a, b, v], 1);
    FirstFlagWins(b, [verb, a, b, v], 2);
  }

  /** The commands of `Main`'s `switch (args[0])`, with what each collected. */
  datatype Action =
    | Create(addon: string, icon: string)
    | Update(addon: string, id: string, newIcon: Option<string>)
    | List

  /** How `Main` ends up after reading its arguments. */
  datatype Outcome =
    | NoArguments
    | Exit(code: int)
    | Run(user: string, pass: string, action: Action)

  /** A credential: the flag's value if given, else the environment variable's value. */
  function Credential(flag: string, variable: string, args: seq<string>, env: string -> Option<string>): (r: Option<string>)
    ensures r.Some? <==> (exists i :: FlagAt(flag, args, i)) || env(variable).Some?
    ensures (forall i | 1 <= i < |args| - 1 :: args[i] != flag) ==> r == env(variable)
    ensures forall i | FlagAt(flag, args, i) && (forall j | 1 <= j < i :: args[j] != flag) :: r == Some(args[i + 1])
  {
    FindArgumentValue(flag, args).OrElse(env(variable))
  }

  /** `FindArgumentValue(argName, args, true)`: the value, or exit code 8. */
  function Required(argName: string, args: seq<string>): (r: Result<string, int>)
    ensures r.Ok? <==> exists i :: FlagAt(argName, args, i)
    ensures forall i | FlagAt(argName, args, i) && (forall j | 1 <= j < i :: args[j] != argName) :: r == Ok(args[i + 1])
    ensures r.Err? ==> r.error == MissingArgument
  {
    match FindArgumentValue(argName, args)
    case Some(v) => Ok(v)
    case None => Err(MissingArgument)
  }

  /** `GetFileInfoOrExit(path)`: the path, or exit code 9 when no such file exists. */
  function ExistingFile(path: string, fileExists: string -> bool): (r: Result<string, int>)
    ensures r.Ok? <==> fileExists(path)
    ensures r.Ok? ==> r.value == path
    ensures r.Err? ==> r.error == FileNotFound
  {
    if fileExists(path) then Ok(path) else Err(FileNotFound)
  }

  /** An `-addon` or `-icon` argument that must be present and name an existing file. */
  function RequiredFile(argName: string, args: seq<string>, fileExists: string -> bool): (r: Result<string, int>)
    ensures r.Ok? <==> FindArgumentValue(argName, args).Some? && fileExists(FindArgumentValue(argName, args).value)
    ensures r.Ok? ==> r.value == FindArgumentValue(argName, args).value
    ensures r.Err? ==> r.error == (if FindArgumentValue(argName, args).None? then MissingArgument else FileNotFound)
  {
    var path :- Required(argName, args);
    ExistingFile(path, fileExists)
  }

  /** The `switch (args[0])` of `Main`; `Exit` ends the process at the first failing check. */
  function Command(args: seq<string>, fileExists: string -> bool): (r: Result<Action, int>)
    requires |args| >= 1
    ensures r.Err? ==> r.error == MissingArgument || r.error == FileNotFound
    ensures r.Ok? ==> args[0] == "create" || args[0] == "update" || args[0] == "list"
  {
    match args[0]
    case "create" =>
      var addon :- RequiredFile("-addon", args, fileExists);
      var icon :- RequiredFile("-icon", args, fileExists);
      Ok(Create(addon, icon))
    case "update" =>
      var addon :- RequiredFile("-addon", args, fileExists);
      var id :- Required("-id", args);
      (match FindArgumentValue("-icon", args)
       case None => Ok(Update(addon, id, None))
       case Some(path) =>
         var icon :- ExistingFile(path, fileExists);
         Ok(Update(addon, id, Some(icon))))
    case "list" =>
      Ok(List)
    case _ =>
      Err(MissingArgument)
  }

  /**
   * `Main` up to connecting to Steam: no arguments returns at once; then the
   * credentials, then the verb and its arguments, each failure ending the
   * process with its exit code.
   */
  function Resolve(args: seq<string>, env: string -> Option<string>, fileExists: string -> bool): (r: Outcome)
    ensures r.NoArguments? <==> |args| == 0
    ensures r.Exit? ==> r.code == MissingArgument || r.code == FileNotFound
    ensures r.Run? ==>
      Credential("-user", UserVariable, args, env) == Some(r.user) && Credential("-pass", PassVariable, args, env) == Some(r.pass)
  {
    if |args| < 1 then
      NoArguments
    else
      var user := Credential("-user", UserVariable, args, env);
      var pass := Credential("-pass", PassVariable, args, env);
      if user.None? || pass.None? then
        Exit(MissingArgument)
      else
        match Command(args, fileExists)
        case Err(code) => Exit(code)
        case Ok(action) => Run(user.value, pass.value, action)
  }

  /** Credentials are checked before the verb: without both, every command exits with code 8. */
  lemma MissingCredentialsExit(args: seq<string>, env: string -> Option<string>, fileExists: string -> bool)
    requires |args| >= 1
    requires (FindArgumentValue("-user", args).None? && env(UserVariable).None?)
          || (FindArgumentValue("-pass", args).None? && env(PassVariable).None?)
    ensures Resolve(args, env, fileExists) == Exit(MissingArgument)
  {
  }

  /** With credentials, an unknown verb exits with code 8. */
  lemma UnknownVerbExits(args: seq<string>, env: string -> Option<string>, fileExists: string -> bool)
    requires |args| >= 1 && args[0] != "create" && args[0] != "update" && args[0] != "list"
    ensures Resolve(args, env, fileExists) == Exit(MissingArgument)
  {
  }

  /** Whether both credentials are available, from the arguments or the environment. */
  predicate HasCredentials(args: seq<string>, env: string -> Option<string>) {
    Credential("-user", UserVariable, args, env).Some? && Credential("-pass", PassVariable, args, env).Some?
  }

  /**
   * `create` runs exactly when `-addon` and `-icon` both have values that name
   * existing files, and it runs with those paths.
   */
  lemma CreateRuns(args: seq<string>, env: string -> Option<string>, fileExists: string -> bool)
    requires |args| >= 1 && args[0] == "create" && HasCredentials(args, env)
    ensures Resolve(args, env, fileExists).Run? <==>
      && FindArgumentValue("-addon", args).Some? && fileExists(FindArgumentValue("-addon", args).value)
      && FindArgumentValue("-icon", args).Some? && fileExists(FindArgumentValue("-icon", args).value)
    ensures Resolve(args, env, fileExists).Run? ==>
      Resolve(args, env, fileExists).action
        == Create(FindArgumentValue("-addon", args).value, FindArgumentValue("-icon", args).value)
  {
  }

  /**
   * The failure order of `create`: a missing `-addon` gives 8, then a missing
   * addon file gives 9, before `-icon` is looked at.
   */
  lemma CreateFailureOrder(args: seq<string>, env: string -> Option<string>, fileExists: string -> bool)
    requires |args| >= 1 && args[0] == "create" && HasCredentials(args, env)
    ensures FindArgumentValue("-addon", args).None? ==> Resolve(args, env, fileExists) == Exit(MissingArgument)
    ensures FindArgumentValue("-addon", args).Some? && !fileExists(FindArgumentValue("-addon", args).value)
      ==> Resolve(args, env, fileExists) == Exit(FileNotFound)
  {
  }

  /**
   * `update` runs exactly when `-addon` names an existing file, `-id` has a
   * value, and `-icon`, when given, names an existing file; the icon is optional.
   */
  lemma UpdateRuns(args: seq<string>, env: string -> Option<string>, fileExists: string -> bool)
    requires |args| >= 1 && args[0] == "update" && HasCredentials(args, env)
    ensures Resolve(args, env, fileExists).Run? <==>
      && FindArgumentValue("-addon", args).Some? && fileExists(FindArgumentValue("-addon", args).value)
      && FindArgumentValue("-id", args).Some?
      && (FindArgumentValue("-icon", args).Some? ==> fileExists(FindArgumentValue("-icon", args).value))
    ensures Resolve(args, env, fileExists).Run? ==>
      Resolve(args, env, fileExists).action == Update(FindArgumentValue("-addon", args).value,
        FindArgumentValue("-id", args).value, FindArgumentValue("-icon", args))
  {
  }

  /** `list` needs no further argument: with credentials it always runs. */
  lemma ListRuns(args: seq<string>, env: string -> Option<string>, fileExists: string -> bool)
    requires |args| >= 1 && args[0] == "list" && HasCredentials(args, env)
    ensures Resolve(args, env, fileExists) == Run(Credential("-user", UserVariable, args, env).value,
      Credential("-pass", PassVariable, args, env).value, List)
  {
  }

  /** Credentials from the environment alone suffice, and an argument overrides the environment. */
  lemma CredentialFallback(env: string -> Option<string>, fileExists: string -> bool, user: string, pass: string, other: string)
    requires env(UserVariable) == Some(user) && env(PassVariable) == Some(pass)
    ensures Resolve(["list"], env, fileExists) == Run(user, pass, List)
    ensures Resolve(["list", "-user", other], env, fileExists) == Run(other, pass, List)
  {
    FirstFlagWins("-user", ["list", "-user", other], 1);
    assert FindArgumentValue("-pass", ["list", "-user", other]) == None;
  }
}

=== FILE: text.dfy ===
/**
 * The .NET string operations the encoder relies on: `StartsWith`, `EndsWith`,
 * `ToLower`/`ToLowerInvariant`, `TrimStart(char)`, a `TrimStart(string)`
 * extension, `Path.GetFileName` and a `GetRootFolder` extension. Strings are
 * compared character by character, and '/' is the only path separator.
 * .NET's `StartsWith(string)` and `EndsWith(string)` compare by the current
 * culture, and `Path.GetFileName` on Windows also splits at '\\' and ':'.
 */
module Text {

  predicate StartsWith(s: string, prefix: string) {
    |prefix| <= |s| && s[..|prefix|] == prefix
  }

  predicate EndsWith(s: string, suffix: string) {
    |suffix| <= |s| && s[|s| - |suffix|..] == suffix
  }

  /** An ASCII upper-case letter, 'A' to 'Z'. */
  predicate IsUpper(c: char) {
    'A' <= c <= 'Z'
  }

  function LowerChar(c: char): (r: char)
    ensures !IsUpper(r)
    ensures IsUpper(c) ==> r as int == c as int + 32
    ensures !IsUpper(c) ==> r == c
  {
    if IsUpper(c) then (c as int + 32) as char else c
  }

  /** ASCII lower-casing, character by character. */
  function ToLower(s: string): (r: string)
    ensures |r| == |s|
    ensures forall i | 0 <= i < |s| :: r[i] == LowerChar(s[i])
  {
    seq(|s|, i requires 0 <= i < |s| => LowerChar(s[i]))
  }

  /** The lower-cased string has no ASCII upper-case letter, and lower-casing it again changes nothing. */
  lemma ToLowerIsLower(s: string)
    ensures forall i | 0 <= i < |s| :: !IsUpper(ToLower(s)[i])
    ensures ToLower(ToLower(s)) == ToLower(s)
  {
  }

  /**
   * True when lower-casing `s` gives `t`, checked one character at a time; the
   * comparison `s.ToLower() == t`, in a form the solver unfolds lazily.
   */
  predicate LowersTo(s: string, t: string)
    decreases |s|
  {
    if |s| == 0 then |t| == 0 else |t| > 0 && LowerChar(s[0]) == t[0] && LowersTo(s[1..], t[1..])
  }

  lemma {:induction false} LowersToIff(s: string, t: string)
    ensures LowersTo(s, t) <==> ToLower(s) == t
    decreases |s|
  {
    if |s| > 0 && |t| > 0 {
      LowersToIff(s[1..], t[1..]);
      assert ToLower(s) == [LowerChar(s[0])] + ToLower(s[1..]);
      assert t == [t[0]] + t[1..];
    }
  }

  /** `s.TrimStart(c)`: the suffix left after removing every leading `c`. */
  function TrimStartChar(s: string, c: char): (r: string)
    ensures |r| <= |s| && r == s[|s| - |r|..]
    ensures r == "" || r[0] != c
    ensures forall i | 0 <= i < |s| - |r| :: s[i] == c
  {
    if |s| > 0 && s[0] == c then TrimStartChar(s[1..], c) else s
  }

  /**
   * `s.TrimStart(prefix)`, the string overload, whose source is not part of
   * this model: removes `prefix` from the front of `s` for as long as `s`
   * starts with it. The empty prefix removes nothing.
   */
  function TrimStartString(s: string, prefix: string): (r: string)
    ensures |r| <= |s| && r == s[|s| - |r|..]
    ensures prefix != "" ==> !StartsWith(r, prefix)
    ensures prefix == "" || !StartsWith(s, prefix) ==> r == s
    decreases |s|
  {
    if prefix != "" && StartsWith(s, prefix) then TrimStartString(s[|prefix|..], prefix) else s
  }

  /** `k` copies of `p`, back to back. */
  function Repeat(p: string, k: nat): (r: string)
    ensures |r| == k * |p|
  {
    if k == 0 then "" else p + Repeat(p, k - 1)
  }

  /** What `TrimStartString` removes is a whole number `k` of copies of the prefix. */
  lemma {:induction false} TrimStartStringCopies(s: string, prefix: string) returns (k: nat)
    ensures s == Repeat(prefix, k) + TrimStartString(s, prefix)
    decreases |s|
  {
    var r := TrimStartString(s, prefix);
    if prefix != "" && StartsWith(s, prefix) {
      var rest := s[|prefix|..];
      var j := TrimStartStringCopies(rest, prefix);
      assert r == TrimStartString(rest, prefix);
      assert s == prefix + rest;
      calc {
        s;
        prefix + (Repeat(prefix, j) + r);
        (prefix + Repeat(prefix, j)) + r;
        Repeat(prefix, j + 1) + r;
      }
      k := j + 1;
    } else {
      assert s == Repeat(prefix, 0) + r;
      k := 0;
    }
  }

  /** Index of the last `c` in `s`, or -1 when there is none. */
  function LastIndexOf(s: string, c: char): (r: int)
    ensures -1 <= r < |s|
    ensures r >= 0 ==> s[r] == c
    ensures forall i | r < i < |s| :: s[i] != c
  {
    if |s| == 0 then -1
    else if s[|s| - 1] == c then |s| - 1
    else LastIndexOf(s[..|s| - 1], c)
  }

  /** `Path.GetFileName`: the part of an archive path after its last '/'. */
  function FileName(path: string): (r: string)
    ensures '/' !in r
    ensures EndsWith(path, r)
  {
    var k := LastIndexOf(path, '/');
    path[k + 1..]
  }

  /**
   * `Extensions.GetRootFolder`: the folder holding the file at `path`, without a
   * trailing '/', or "" for a file at the top level of the archive.
   */
  function RootFolder(path: string): (r: string)
    ensures StartsWith(path, r)
  {
    var k := LastIndexOf(path, '/');
    if k < 0 then "" else path[..k]
  }

  /** A path is its root folder, a '/' and its file name, or just its file name at top level. */
  lemma PathSplit(path: string)
    ensures '/' in path ==> path == RootFolder(path) + "/" + FileName(path)
    ensures '/' !in path ==> RootFolder(path) == "" && FileName(path) == path
  {
    var k := LastIndexOf(path, '/');
    if k >= 0 {
      assert path == path[..k] + "/" + path[k + 1..];
    } else {
      assert forall i | 0 <= i < |path| :: path[i] != '/';
    }
  }
}

=== FILE: utf8.dfy ===
/**
 * UTF-8, the encoding .NET's BinaryWriter and BinaryReader use by default for
 * `char`, `char[]` and string data. A Dafny `char` is a Unicode scalar value.
 */
module Utf8 {
  import opened Common
  import opened Bytes

  /** True for the bytes 0x80..0xBF that continue a multi-byte sequence. */
  predicate IsContinuation(b: byte) {
    0x80 <= b < 0xC0
  }

  /** The one to four bytes that encode `c`. */
  function EncodeChar(c: char): (r: bytes)
    ensures 1 <= |r| <= 4
    ensures (0 in r) <==> c == '\0'
    ensures |r| == 1 <==> (c as int) < 0x80
    ensures forall i | 1 <= i < |r| :: IsContinuation(r[i])
  {
    var cp := c as int;
    if cp < 0x80 then
      [cp as byte]
    else if cp < 0x800 then
      [(0xC0 + cp / 64) as byte, (0x80 + cp % 64) as byte]
    else if cp < 0x1_0000 then
      [(0xE0 + cp / 4096) as byte, (0x80 + (cp / 64) % 64) as byte, (0x80 + cp % 64) as byte]
    else
      [(0xF0 + cp / 262144) as byte, (0x80 + (cp / 4096) % 64) as byte,
       (0x80 + (cp / 64) % 64) as byte, (0x80 + cp % 64) as byte]
  }

  function EncodeString(s: string): (r: bytes)
    ensures |r| >= |s|
  {
    if |s| == 0 then [] else EncodeChar(s[0]) + EncodeString(s[1..])
  }

  /** A code point, if `cp` is a Unicode scalar value (not a surrogate, not above U+10FFFF). */
  function ToChar(cp: int): (r: Option<char>)
    ensures r.Some? ==> r.value as int == cp
  {
    if 0 <= cp < 0xD800 || 0xE000 <= cp < 0x11_0000 then Some(cp as char) else None
  }

  /**
   * The first character of `s` and the number of bytes it occupies; `None` for a
   * malformed, truncated or overlong sequence, a surrogate or a value above U+10FFFF.
   */
  function DecodeChar(s: bytes): (r: Option<(char, nat)>)
    requires |s| > 0
    ensures r.Some? ==> 1 <= r.value.1 <= |s|
  {
    var b0 := s[0] as int;
    if b0 < 0x80 then
      Some((b0 as char, 1))
    else if 0xC0 <= b0 < 0xE0 && |s| >= 2 && IsContinuation(s[1]) then
      var cp := (b0 - 0xC0) * 64 + (s[1] as int - 0x80);
      if cp < 0x80 then None
      else
        var c :- ToChar(cp);
        Some((c, 2))
    else if 0xE0 <= b0 < 0xF0 && |s| >= 3 && IsContinuation(s[1]) && IsContinuation(s[2]) then
      var cp := (b0 - 0xE0) * 4096 + (s[1] as int - 0x80) * 64 + (s[2] as int - 0x80);
      if cp < 0x800 then None
      else
        var c :- ToChar(cp);
        Some((c, 3))
    else if 0xF0 <= b0 < 0xF8 && |s| >= 4 && IsContinuation(s[1]) && IsContinuation(s[2])
            && IsContinuation(s[3]) then
      var cp := (b0 - 0xF0) * 262144 + (s[1] as int - 0x80) * 4096 + (s[2] as int - 0x80) * 64 + (s[3] as int - 0x80);
      if cp < 0x1_0000 then None
      else
        var c :- ToChar(cp);
        Some((c, 4))
    else
      None
  }

  function DecodeString(s: bytes): Option<string>
    decreases |s|
  {
    if |s| == 0 then Some("")
    else
      var (c, n) :- DecodeChar(s);
      var tail :- DecodeString(s[n..]);
      Some([c] + tail)
  }

  lemma DecodeEncodedChar(c: char, rest: bytes)
    ensures DecodeChar(EncodeChar(c) + rest) == Some((c, |EncodeChar(c)|))
  {
    var cp := c as int;
    if cp < 0x80 {
    } else if cp < 0x800 {
      DecodeEncodedTwo(c, rest);
    } else if cp < 0x1_0000 {
      DecodeEncodedThree(c, rest);
    } else {
      DecodeEncodedFour(c, rest);
    }
  }

  lemma DecodeEncodedTwo(c: char, rest: bytes)
    requires 0x80 <= c as int < 0x800
    ensures DecodeChar(EncodeChar(c) + rest) == Some((c, 2))
  {
    var cp := c as int;
    var s := EncodeChar(c) + rest;
    assert s[0] as int - 0xC0 == cp / 64;
    assert (cp / 64) * 64 + cp % 64 == cp;
  }

  lemma DecodeEncodedThree(c: char, rest: bytes)
    requires 0x800 <= c as int < 0x1_0000
    ensures DecodeChar(EncodeChar(c) + rest) == Some((c, 3))
  {
    var cp := c as int;
    var s := EncodeChar(c) + rest;
    assert s[0] as int - 0xE0 == cp / 4096;
    assert s[1] as int - 0x80 == (cp / 64) % 64;
    assert (cp / 4096) * 64 + (cp / 64) % 64 == cp / 64;
    assert (cp / 64) * 64 + cp % 64 == cp;
  }

  lemma DecodeEncodedFour(c: char, rest: bytes)
    requires 0x1_0000 <= c as int
    ensures DecodeChar(EncodeChar(c) + rest) == Some((c, 4))
  {
    var cp := c as int;
    var s := EncodeChar(c) + rest;
    assert s[0] as int - 0xF0 == cp / 262144;
    assert (cp / 262144) * 64 + (cp / 4096) % 64 == cp / 4096;
    assert (cp / 4096) * 64 + (cp / 64) % 64 == cp / 64;
    assert (cp / 64) * 64 + cp % 64 == cp;
  }

  /** Decoding undoes encoding, for every string. */
  lemma {:induction false} DecodeEncodedString(s: string)
    ensures DecodeString(EncodeString(s)) == Some(s)
  {
    if |s| > 0 {
      var e := EncodeString(s);
      DecodeEncodedChar(s[0], EncodeString(s[1..]));
      assert e[|EncodeChar(s[0])|..] == EncodeString(s[1..]);
      DecodeEncodedString(s[1..]);
      assert [s[0]] + s[1..] == s;
    }
  }

  /** The only zero byte UTF-8 produces is the encoding of NUL itself. */
  lemma {:induction false} ZeroByteIffNul(s: string)
    ensures (0 in EncodeString(s)) <==> ('\0' in s)
  {
    if |s| > 0 {
      ZeroByteIffNul(s[1..]);
      assert '\0' in s <==> s[0] == '\0' || '\0' in s[1..];
    }
  }

  /** True when every character is in the 7-bit ASCII range. */
  predicate IsAscii(s: string) {
    forall i | 0 <= i < |s| :: (s[i] as int) < 0x80
  }

  /** An ASCII string is encoded one byte per character, as its code points. */
  lemma {:induction false} EncodeAscii(s: string)
    requires IsAscii(s)
    ensures |EncodeString(s)| == |s|
    ensures forall i | 0 <= i < |s| :: EncodeString(s)[i] as int == s[i] as int
  {
    if |s| > 0 {
      EncodeAscii(s[1..]);
    }
  }

  /** A decoded character is encoded back to exactly the bytes it was decoded from. */
  lemma EncodeDecodedChar(s: bytes)
    requires |s| > 0 && DecodeChar(s).Some?
    ensures EncodeChar(DecodeChar(s).value.0) == s[..DecodeChar(s).value.1]
  {
    var b0 := s[0] as int;
    if 0xC0 <= b0 < 0xE0 {
      EncodeDecodedTwo(s);
    } else if 0xE0 <= b0 < 0xF0 {
      EncodeDecodedThree(s);
    } else if 0xF0 <= b0 < 0xF8 {
      EncodeDecodedFour(s);
    }
  }

  lemma EncodeDecodedTwo(s: bytes)
    requires |s| > 0 && 0xC0 <= s[0] < 0xE0 && DecodeChar(s).Some?
    ensures EncodeChar(DecodeChar(s).value.0) == s[..2]
  {
    DivMod64(s[0] as int - 0xC0, s[1] as int - 0x80);
  }

  lemma EncodeDecodedThree(s: bytes)
    requires |s| > 0 && 0xE0 <= s[0] < 0xF0 && DecodeChar(s).Some?
    ensures EncodeChar(DecodeChar(s).value.0) == s[..3]
  {
    var a, b, c := s[0] as int - 0xE0, s[1] as int - 0x80, s[2] as int - 0x80;
    var cp := a * 4096 + b * 64 + c;
    assert cp == (a * 64 + b) * 64 + c;
    DivMod64(a * 64 + b, c);
    DivMod64(a, b);
    assert cp / 4096 == (cp / 64) / 64;
  }

  lemma EncodeDecodedFour(s: bytes)
    requires |s| > 0 && 0xF0 <= s[0] < 0xF8 && DecodeChar(s).Some?
    ensures EncodeChar(DecodeChar(s).value.0) == s[..4]
  {
    var a, b, c, d := s[0] as int - 0xF0, s[1] as int - 0x80, s[2] as int - 0x80, s[3] as int - 0x80;
    var cp := a * 262144 + b * 4096 + c * 64 + d;
    assert cp == ((a * 64 + b) * 64 + c) * 64 + d;
    DivMod64((a * 64 + b) * 64 + c, d);
    DivMod64(a * 64 + b, c);
    DivMod64(a, b);
    assert cp / 4096 == (cp / 64) / 64;
    assert cp / 262144 == (cp / 4096) / 64;
  }

  lemma DivMod64(hi: int, lo: int)
    requires 0 <= lo < 64
    ensures (hi * 64 + lo) / 64 == hi && (hi * 64 + lo) % 64 == lo
  {
  }

  /** Encoding undoes decoding: the bytes a string was decoded from are its encoding. */
  lemma {:induction false} EncodeDecodedString(s: bytes)
    requires DecodeString(s).Some?
    ensures EncodeString(DecodeString(s).value) == s
    decreases |s|
  {
    if |s| > 0 {
      var (c, n) := DecodeChar(s).value;
      DecodeStringCons(s);
      EncodeDecodedString(s[n..]);
      EncodeDecodedChar(s);
      EncodeCons(s, n, c, DecodeString(s[n..]).value, DecodeString(s).value);
    }
  }

  /** Encoding a character and then the rest gives back bytes that were split after that character. */
  lemma EncodeCons(s: bytes, n: nat, c: char, rest: string, t: string)
    requires n <= |s| && t == [c] + rest
    requires EncodeChar(c) == s[..n] && EncodeString(rest) == s[n..]
    ensures EncodeString(t) == s
  {
    EncodeStringCons(c, rest);
    assert s == s[..n] + s[n..];
  }

  /** A decoded string is its first character followed by the decoding of the bytes after it. */
  lemma DecodeStringCons(s: bytes)
    requires |s| > 0 && DecodeString(s).Some?
    ensures DecodeChar(s).Some?
    ensures DecodeString(s[DecodeChar(s).value.1..]).Some?
    ensures DecodeString(s).value == [DecodeChar(s).value.0] + DecodeString(s[DecodeChar(s).value.1..]).value
  {
  }

  lemma EncodeStringCons(c: char, rest: string)
    ensures EncodeString([c] + rest) == EncodeChar(c) + EncodeString(rest)
  {
    assert ([c] + rest)[1..] == rest;
  }
}
